=== FILE: README.md ===
# CryptoDevs access control — a Dafny model

This project models the core of the CryptoDevs access-control back end, a web
service that controls access to premises:

- **Credentials ("QR codes").** A credential is issued for a user (an
  employee) or for a visitor. It is valid for 24 hours.
- **Scans.** Scanning a credential, either directly by its code or from a
  decoded image, checks it and appends an access log ("entry" or "exit").
- **Record management.** Access logs and incidents are created, listed,
  updated and deleted. Users are created, looked up, updated and logged in
  as administrators.
- **Weekly report.** The report counts the last seven days of access logs,
  by access type, by person type and by day. It is also rendered as HTML
  rows.

Each database table is a class. It holds the rows as a sequence and the next
autoincrement key. The routers' operations are methods that change those
fields, and each method is proved against a specification function or
against the table's new contents. Request validators, lookups, the login
decision chain, error-text handling and the report's counters are functions.
Lemmas relate them.

Files, one module each:

- `common.dfy`: options, results, time, query helpers, and the `setattr`
  loop of partial updates.
- `text.dfy`: decimal text, `int()`, `lower()`, substring search, and
  stripping a leading "NNN: ".
- `models.dfy`: entities and tables.
- `schemas.dfy`: request validators.
- `qr_codes.dfy`, `access_logs.dfy`, `incidents.dfy`, `users.dfy`: one per
  router.
- `reports.dfy`: the report service.

Time is whole seconds in UTC. The calendar date of an instant `t` is the day
number `t / 86400`.

**Expiry at the boundary instant.** A credential is rejected as expired only
when its expiry instant is strictly before `now`. So it is still accepted at
`now == expires_at`, and `QrCodes.FreshCredentialWindow` proves that a fresh
credential is accepted up to and including 24 hours after issue.

## Model

| member | source | states |
|---|---|---|
| Common.SetAttrs | app/routers/access_logs.py:153-155 | The `setattr` loop over the supplied fields ends with the row that results from assigning those fields one after the other, in order. |
| Common.FoldFieldsAppend | app/routers/access_logs.py:154-155 | Assigning one list of fields and then another is the same as assigning their concatenation. |
| Common.FilterSnoc | app/routers/access_logs.py:68-70 | A filtered query keeps table order: filtering `s + [x]` gives the filter of `s` followed by `x` exactly when `x` passes. |
| Common.Page | app/routers/access_logs.py:71 | OFFSET/LIMIT returns `min(limit, max(0, n - skip))` elements, and element `i` is source element `skip + i`. |
| Common.RemoveAt | app/routers/access_logs.py:170 | Deleting the row at position `k` keeps every other row, in order. |
| Common.DateOf | app/routers/qr_codes_fixed.py:179 | The date of an instant is the day whose 24-hour span contains it. |
| Text.DecimalText | app/routers/users.py:69 | `str(n)` of a status code is a non-empty run of digits. |
| Text.ParseInt | app/routers/users.py:109 | `int(s)` succeeds iff the text is a digit run, optionally after one sign. Its value is the digits' decimal value, negated after '-'. |
| Text.ParseDecimalText | app/routers/users.py:109 | `int(str(n)) == n` for every non-negative `n`. |
| Text.Lower | app/routers/users.py:29 | `lower()` keeps the length, maps every character through ASCII lower-casing, and leaves no upper-case letter. |
| Text.LowerIdempotent | app/routers/users.py:29 | Lower-casing an already lower-cased e-mail changes nothing. |
| Text.MissingCharNotContained | app/routers/users.py:70 | A text cannot contain a word that has a character the text lacks. |
| Text.LowerLacksChar | app/routers/users.py:80 | If a text has neither the lower-case nor the upper-case form of a letter, its lower-cased form lacks that letter. |
| Text.FindSeparator | app/routers/users.py:89 | Finds the first occurrence of ": ", or reports that there is none. |
| Text.StripStatusPrefix | app/routers/users.py:87-90 | A message without ": " is unchanged. Otherwise, when the text before the first ": " is a non-empty run of digits, the result is everything after that separator, and else the message is unchanged. |
| Text.StripRendered | app/routers/users.py:86-90 | Stripping "<status>: <detail>" gives back exactly the detail. |
| Text.StripKeepsUnnumbered | app/routers/access_logs.py:52-54 | A message that does not start with a digit is never changed. |
| Models.Credential.UserId | app/models/qr_code.py:13 | The `user_id` column is set exactly when the owner is an employee, and then holds the owner's id. |
| Models.Credential.VisitorId | app/models/qr_code.py:14 | The `visitor_id` column is set exactly when the owner is a visitor, and then holds the owner's id. |
| Models.UserTable.IndexOf | app/routers/users.py:130 | The lookup by primary key finds a row with that id, or reports that no row has it. |
| Models.AccessLogTable.IndexOf | app/routers/access_logs.py:146 | The lookup by primary key finds a row with that id, or reports that no row has it. |
| Models.IncidentTable.IndexOf | app/routers/incidents.py:67 | The lookup by primary key finds a row with that id, or reports that no row has it. |
| QrCodes.Status | app/routers/qr_codes_fixed.py:142-215 | The not-found errors ("Invalid QR code" included) are 404s; the uncaught commit failure of an over-wide access type is a 500; every other credential error is a 400. |
| QrCodes.FindByCode | app/routers/qr_codes_fixed.py:149 | The lookup by code returns a stored credential with that code, or none exactly when no credential carries it. |
| QrCodes.FindById | app/routers/qr_codes_fixed.py:102 | The lookup by id returns a stored credential with that id, or none exactly when no credential has it. |
| QrCodes.FindByCodeExact | app/models/qr_code.py:12 | With unique codes, a stored credential's code finds exactly that credential. |
| QrCodes.FindByIdExact | app/models/qr_code.py:11 | With unique ids, a stored credential's id finds exactly that credential. |
| QrCodes.AppendKeepsKeys | app/models/qr_code.py:11-12 | Appending a credential with the next id, a fresh code and a real owner keeps ids below the counter, ids and codes unique, and employee owners valid. |
| QrCodes.Check | app/routers/qr_codes_fixed.py:149-167 | The checks run in order: not found, then inactive, then expired, where expired means `expires_at < now`. A credential passes iff it exists, is active, and has no expiry or `now <= expires_at`. |
| QrCodes.Issue | app/routers/qr_codes_fixed.py:39-57 | Appends exactly one credential: active, expiring at `now + 24h`, with a fresh code. Codes stay unique, and the new code finds the new credential. |
| QrCodes.GenerateForUser | app/routers/qr_codes_fixed.py:25-57 | An unknown user id gives 404 and adds nothing. Otherwise exactly one credential owned by that employee is appended, and no existing credential changes. |
| QrCodes.GenerateForVisitor | app/routers/qr_codes_fixed.py:60-92 | An unknown visitor id gives 404 and adds nothing. Otherwise exactly one credential owned by that visitor is appended, and no existing credential changes. |
| QrCodes.FreshCredentialWindow | app/routers/qr_codes_fixed.py:163-167 | A fresh credential is accepted iff `now <= issued + 24h`, and after that it is reported as expired. |
| QrCodes.ImagePayload | app/routers/qr_codes_fixed.py:102-120 | An id no credential has gives the 404. Otherwise the image is rendered iff the first credential with that id is active and not expired (`now <= expires_at`), and it carries that credential's code. |
| QrCodes.ImageAgreesWithScan | app/routers/qr_codes_fixed.py:102-120 | For a stored credential, the image endpoint (by id) and a scan (by code) accept or reject together, with the same error. The rendered payload scans back to that credential. |
| QrCodes.ScanEntry | app/routers/qr_codes_fixed.py:169-183 | The log written by a scan has person type "employee" iff `user_id` is set and "visitor" iff `visitor_id` is set. Its person id is the owner's, its time is `now`, and its workday is the date of `now`. |
| QrCodes.UnknownCodeRejected | app/routers/qr_codes_fixed.py:149-154 | A code no credential carries is always rejected with "Invalid QR code". |
| QrCodes.Scan | app/routers/qr_codes_fixed.py:142-188 | A failed check returns its error and leaves the logs unchanged. A passing credential with an access type longer than the 10-character column (app/models/access_log.py:10) fails at the commit with a 500 and no log, on an engine that enforces the width. Otherwise exactly one log is appended, its access type stored unchecked. The credential table is never modified. |
| QrCodes.ScanImage | app/routers/qr_codes_fixed.py:191-260 | An access type other than "entry" or "exit" is refused before anything else, and an empty decode gives "No QR code found". Both leave the logs unchanged. Otherwise the first decoded code is scanned. |
| Schemas.ValidatePersonType | app/schemas/access_log.py:12-16 | Accepted iff "employee" or "visitor", and an accepted value is returned unchanged. |
| Schemas.ValidateAccessType | app/schemas/access_log.py:18-22 | Accepted iff "entry" or "exit", and an accepted value is returned unchanged. |
| Schemas.ValidateOptionalAccessType | app/schemas/access_log.py:31-35 | An omitted access type is accepted; a supplied one follows the entry/exit rule. |
| Schemas.AccessLogCreateErrors | app/schemas/access_log.py:6-22 | A create payload is accepted iff both its person type and its access type are valid. |
| Schemas.AccessLogUpdateErrors | app/schemas/access_log.py:27-35 | An update payload is accepted iff its optional access type is. |
| Schemas.ValidateIncidentType | app/schemas/incident.py:17-21 | Accepted iff one of denied_access, invalid_qr or security_alert, and returned unchanged. |
| Schemas.ValidateOptionalPersonType | app/schemas/incident.py:32-36 | An omitted person type is accepted; a supplied one follows the employee/visitor rule. |
| Schemas.ValidateOptionalIncidentType | app/schemas/incident.py:38-42 | An omitted incident type is accepted; a supplied one follows the incident-type rule. |
| Schemas.IncidentCreateErrors | app/schemas/incident.py:5-21 | A create payload is accepted iff both its person type and its incident type are valid. |
| Schemas.IncidentUpdateErrors | app/schemas/incident.py:26-42 | An update payload is accepted iff both optional types are. |
| Schemas.ValidateAdminPassword | app/schemas/user.py:17-22 | A password is rejected iff the validated `user_type` is "admin" and the password is None or empty. Otherwise it is returned unchanged; when `user_type` is absent it is never rejected. |
| Schemas.UserCreateErrors | app/schemas/user.py:14-22 | An admin create is refused (422) iff it sends the password as `null` or empty. A password left out defaults to None and is not validated, and non-admin creates are never refused. |
| Schemas.UserUpdateErrors | app/schemas/user.py:28-41 | An update is refused only when it sends an empty password and also sets `user_type` to "admin". |
| AccessLogs.Status | app/routers/access_logs.py:21-59 | The not-found errors are 404s, an unknown person type is a 400, and a failed commit is a 500. |
| AccessLogs.PersonError | app/routers/access_logs.py:20-39 | The person check passes iff an employee log names an existing user or a visitor log names an existing visitor. A missing employee or visitor is a 404 naming that person id, any other person type is a 400, and the check never raises a 500. |
| AccessLogs.ValidatedPayloadHasKnownType | app/routers/access_logs.py:35-39 | A payload that passed validation can only fail the person check with a 404, never with the router's own 400. |
| AccessLogs.CommitError | app/routers/access_logs.py:49-59 | A failed commit is a 500 whose detail is the fixed prefix followed by the failure text with any "NNN: " stripped. |
| AccessLogs.CommitErrorDropsStatus | app/routers/access_logs.py:52-54 | A failure text rendered as "<status>: <detail>" is reported with the bare detail. |
| AccessLogs.CreateAccessLog | app/routers/access_logs.py:17-59 | Person-check errors propagate unchanged, and a commit failure becomes the 500; both store nothing. On success exactly one log is appended, with the payload's fields, the caller's workday and `now` as its time. |
| AccessLogs.LogsOfDay | app/routers/access_logs.py:68-70 | Keeps exactly the logs of the given workday, or all logs when none is given. |
| AccessLogs.ListAccessLogs | app/routers/access_logs.py:61-72 | Returns at most `limit` matching logs. They are the matches from position `skip` on, in table order, and with `skip = 0` and enough room, every match is listed. |
| AccessLogs.PatchLog | app/routers/access_logs.py:153-155 | An update replaces the supplied access type and workday and keeps id, person type, person id and access time. |
| AccessLogs.SetAttrsPatchesLog | app/routers/access_logs.py:153-155 | The `setattr` loop over the supplied fields yields exactly the field-by-field patch. |
| AccessLogs.UpdateAccessLog | app/routers/access_logs.py:144-159 | An unknown id gives 404 and changes nothing. Otherwise only that row changes, and it becomes the patch. |
| AccessLogs.RemoveLogById | app/routers/access_logs.py:163-170 | With unique ids, deleting the row found for an id removes exactly the logs with that id. |
| AccessLogs.DeleteAccessLog | app/routers/access_logs.py:161-173 | An unknown id gives 404 and changes nothing. Otherwise exactly the row with that id disappears and all others stay, in order. |
| Incidents.Status | app/routers/incidents.py:23-37 | The not-found errors are 404s and a failed commit is a 500. |
| Incidents.PersonFound | app/routers/incidents.py:18-21 | An "employee" incident looks up a user and any other person type a visitor. A missing person id finds nobody. |
| Incidents.PersonError | app/routers/incidents.py:23-27 | Not-found is raised iff the person id is truthy and the lookup fails. An incident without a person id, or with id 0, is never refused. |
| Incidents.CreateIncident | app/routers/incidents.py:15-37 | A failed person check is a 404 and a failed commit a 500 carrying the failure text; neither stores anything. Otherwise exactly one incident is appended with the supplied fields. |
| Incidents.SelectedIncidents | app/routers/incidents.py:47-51 | Keeps exactly the incidents that pass the filters that were given. |
| Incidents.ListIncidents | app/routers/incidents.py:39-53 | Returns at most `limit` matching incidents. They are the matches from position `skip` on, in table order, and with `skip = 0` and enough room, every match is listed. |
| Incidents.PatchIncident | app/routers/incidents.py:74-76 | An update replaces each supplied field and keeps the id, the report time and every omitted field. |
| Incidents.FoldAtMostOne | app/routers/incidents.py:75-76 | Assigning no field keeps the row, and assigning one field is that single assignment. |
| Incidents.FoldTwo | app/routers/incidents.py:75-76 | Assigning two groups of at most one field each is the two assignments in order. |
| Incidents.PersonFieldsPatch | app/routers/incidents.py:74-76 | Assigning the supplied person type and person id patches exactly those. |
| Incidents.KindFieldsPatch | app/routers/incidents.py:74-76 | Assigning the supplied incident type and description patches exactly those. |
| Incidents.SetAttrsPatchesIncident | app/routers/incidents.py:74-76 | The `setattr` loop over the supplied fields yields exactly the field-by-field patch. |
| Incidents.UpdateIncident | app/routers/incidents.py:65-80 | An unknown id gives 404 and changes nothing. Otherwise only that row changes, and it becomes the patch. |
| Incidents.RemoveIncidentById | app/routers/incidents.py:84-91 | With unique ids, deleting the row found for an id removes exactly the incidents with that id. |
| Incidents.DeleteIncident | app/routers/incidents.py:82-94 | An unknown id gives 404 and changes nothing. Otherwise exactly the row with that id disappears and all others stay, in order. |
| Users.Status | app/routers/users.py:22-201 | Each user error has its own status: 400 for the create and update checks, 404, 403, 401, and 500 for the catch-all. |
| Users.Message | app/config/messages.py:8-10 | The three texts `create_user` raises itself are non-empty. |
| Users.UnmarkedConcat | app/config/messages.py:8-10 | Joining texts that lack '_', 'k' and 'K' gives a text that lacks them too. |
| Users.AdminPasswordRequiredUnmarked | app/config/messages.py:8-10 | The admin-password message contains no '_', 'k' or 'K'. |
| Users.EmailExistsUnmarked | app/config/messages.py:8-10 | The e-mail-exists message contains no '_', 'k' or 'K'. |
| Users.DocumentExistsUnmarked | app/config/messages.py:8-10 | The document-exists message contains no '_', 'k' or 'K'. |
| Users.MessageUnmarked | app/config/messages.py:8-10 | None of the three messages contains '_', 'k' or 'K'. |
| Users.RenderedText | app/routers/users.py:23-26 | Every check error `create_user` raises is a 400, and its text reads "400: " followed by its message. |
| Users.RenderedLacksMarks | app/routers/users.py:70-80 | The text of such an error names neither unique constraint and does not contain "check" in any case. |
| Users.CatchAll | app/routers/users.py:66-95 | A text naming the e-mail constraint becomes "e-mail exists"; otherwise one naming the document constraint becomes "document exists"; otherwise "check" with "admin" (ignoring case) becomes "admin password". A 500 is raised iff none of these match, and its detail is the stripped text. |
| Users.CreateCheckErrorBecomesServerError | app/routers/users.py:66-95 | Every error `create_user` raises itself is caught again and reaches the client as a 500 whose detail is the original message. |
| Users.Conflict | app/routers/users.py:32-37 | The duplicate query finds a user with the same e-mail ignoring case or the same document number, or none exactly when there is no such user. |
| Users.CreateCheck | app/routers/users.py:22-49 | The admin-password rule is checked first. Then a create passes iff no user shares the e-mail (ignoring case) or the document number; when the first conflicting user shares the e-mail the answer is the e-mail error, and otherwise the document error. |
| Users.NewUser | app/routers/users.py:51-55 | The stored row has the lower-cased e-mail, and every other field as given. |
| Users.AppendKeepsKeys | app/models/user.py:7-11 | Appending a user with the next id and an e-mail and document no user holds keeps ids, e-mails and documents unique. |
| Users.CreateUser | app/routers/users.py:18-95 | Every failure goes through the catch-all and stores nothing. On success exactly one user with the lower-cased e-mail is appended, and e-mails and documents stay unique. |
| Users.RefusedCreateIs500 | app/routers/users.py:20-95 | A create with a taken e-mail or document, or an admin create without a password, is refused with a 500 carrying the message of the check that fired. |
| Users.GetUserById | app/routers/users.py:102-125 | An integer key finds a user with that id or document number, and any other key a user with that document number. A 404 is returned iff no user matches. |
| Users.IdTextFindsUser | app/routers/users.py:108-115 | The decimal text of a stored user's id finds that user, when no user has that text as its document number. |
| Users.DocumentFindsUser | app/routers/users.py:116-118 | With unique document numbers, a user's document number finds that user, unless it parses as another user's id. |
| Users.PatchUser | app/routers/users.py:146-148 | An update replaces each supplied field and keeps the id, the document number and every omitted field. |
| Users.FoldAtMostOne | app/routers/users.py:147-148 | Assigning no field keeps the row, and assigning one field is that single assignment. |
| Users.FoldThree | app/routers/users.py:147-148 | Assigning three groups of at most one field each is the three assignments in order. |
| Users.PersonalFieldsPatch | app/routers/users.py:146-148 | Assigning the supplied name and e-mail fields patches exactly those. |
| Users.AccountFieldsPatch | app/routers/users.py:146-148 | Assigning the supplied type, password and image fields patches exactly those. |
| Users.SetAttrsPatchesUser | app/routers/users.py:146-148 | The `setattr` loop over the supplied fields yields exactly the field-by-field patch. |
| Users.ReplaceKeepsKeys | app/models/user.py:7-11 | Replacing a user by one with the same id and document, and an e-mail no other user holds, keeps ids, e-mails and documents unique. |
| Users.UpdateUser | app/routers/users.py:127-169 | The checks run in order: an unknown id is a 404; a switch to admin without a new password is refused only if no password is stored; an e-mail another user holds gives "e-mail exists". These leave the table unchanged. Otherwise only that row changes, to the patch, and the table's uniqueness invariant holds. |
| Users.LoginMatch | app/routers/users.py:174-179 | The login query finds a user whose e-mail or document number equals the identifier exactly, or none when no user matches. |
| Users.Login | app/routers/users.py:171-201 | No match is a 404, and a non-admin first match is a 403. The login succeeds iff the first user matched by e-mail or document is an admin whose stored password equals the non-empty one given, and it returns that user; every other failure is a 401. |
| Users.AdminLoginByEmail | app/routers/users.py:174-201 | An admin with a password, identified by an e-mail unique among e-mails and documents, logs in exactly with that password; any other password gives 401. |
| Reports.WeekLogs | app/services/report_service.py:20-30 | A log is in the report iff `now - 7 days <= access_time <= now`, both ends inclusive. |
| Reports.CountAccess | app/services/report_service.py:33-34 | A count of one access type never exceeds the number of logs. |
| Reports.CountAccessBy | app/services/report_service.py:37-40 | A count of one access type for one person type never exceeds the count for all person types. |
| Reports.EntriesAndExits | app/services/report_service.py:33-34 | Entries plus exits is at most the number of logs, and equals it when every access type is "entry" or "exit". |
| Reports.ByPersonType | app/services/report_service.py:37-40 | Employee plus visitor counts of an access type are at most its count, and equal it when every person type is valid. |
| Reports.DayIndex | app/services/report_service.py:46 | Finds the bucket of a date, or reports that there is none. |
| Reports.Bump | app/services/report_service.py:49-52 | Counting a log adds one to its bucket: an entry if the access type is "entry", otherwise an exit. |
| Reports.BuildDailyStats | app/services/report_service.py:43-52 | The per-day loop produces exactly the buckets of the specification fold over the logs. |
| Reports.SumsUpdate | app/services/report_service.py:49-52 | Replacing one bucket changes the sums of entries and exits by that bucket's difference. |
| Reports.SumsAppend | app/services/report_service.py:47 | Opening a bucket adds its counters to the sums. |
| Reports.OpenBucket | app/services/report_service.py:46-52 | A log of a new date opens one bucket at the end. Dates stay distinct and buckets non-empty, and the sums grow by the log. |
| Reports.CountInBucket | app/services/report_service.py:49-52 | A log whose date has a bucket is counted there. Dates stay distinct and buckets non-empty, and the sums grow by the log. |
| Reports.TallyStep | app/services/report_service.py:44-52 | One loop iteration keeps the bucket invariants, adds the log's date to the dates, and grows the sums by one log. |
| Reports.LogDatesSnoc | app/services/report_service.py:44-45 | The dates of the logs are the dates of all but the last, plus the last one's. |
| Reports.DailyStatsFacts | app/services/report_service.py:43-52 | The buckets have distinct dates and none is empty. Their dates are exactly the logs' dates, their entries add up to the "entry" logs, and entries plus exits add up to all logs. |
| Reports.DailyExitsAgainstTotals | app/services/report_service.py:33-52 | The buckets' exits are at least the total exits. They are equal when every access type is valid, and strictly more otherwise, because buckets count every non-"entry" log as an exit. |
| Reports.InvalidAccessTypeUncounted | app/services/report_service.py:33-34 | A log with an access type other than "entry" or "exit" makes entries plus exits fall short of the total. |
| Reports.RawRows | app/services/report_service.py:78-88 | One raw row per included log, in query order, copying id, person type, person id, access type, time and workday. |
| Reports.TypeCounts | app/services/report_service.py:65-75 | A person type's total is its entries plus its exits. |
| Reports.GetWeeklyAccessReport | app/services/report_service.py:10-91 | The report built with its per-day loop is exactly the report specification for the table and `now`. |
| Reports.ReportTotals | app/services/report_service.py:33-40 | The total is the number of the week's logs. Entries plus exits fit in it, exactly when access types are valid; per-person-type counts fit in the totals, exactly when person types are valid. |
| Reports.ReportDaily | app/services/report_service.py:43-52 | A report's buckets have distinct dates and none is empty. Their entries add up to the total entries, and entries plus exits to the total. |
| Reports.ReportDaysAreLogDates | app/services/report_service.py:44-47 | A date has a bucket iff some log of the window falls on it. |
| Reports.DailyRowOf | app/services/report_service.py:216-225 | A daily HTML row shows the bucket's date and counters, and a total equal to entries plus exits. |
| Reports.SumTotalsOfBuckets | app/services/report_service.py:216-217 | The totals column of the daily rows adds up to all entries and exits of the buckets. |
| Reports.PersonLabel | app/services/report_service.py:248 | "Empleado" iff the person type is "employee", and "Visitante" for anything else. |
| Reports.AccessLabel | app/services/report_service.py:250 | "Entrada" iff the access type is "entry", and "Salida" for anything else. |
| Reports.HtmlRows | app/services/report_service.py:215-253 | One daily row per bucket, in bucket order. Detail rows only for the first `min(50, raw rows)` raw rows, in order, with their labels. |
| Reports.HtmlDailyTotals | app/services/report_service.py:215-225 | The daily rows of a report have totals adding up to the number of the week's logs, and none is zero. |

## Left out

- QR image rendering and decoding are foreign libraries. The image endpoint is modelled up to the payload it would render, and the decoder's results are a parameter of `ScanImage`.
- The uuid4 generator is not modelled. Issuing takes the new code as a parameter, with the precondition that no stored credential carries it.
- The wall clock is a parameter `now`. A scan reads the clock twice; the model uses one instant for both. Time zones other than UTC are not modelled.
- The scan passes `user_id`, `visitor_id` and `qr_code_id` to the access-log constructor (app/routers/qr_codes_fixed.py:174, :246), but these are not access-log columns. SQLAlchemy's default constructor raises `TypeError` on them, so as written both scan endpoints answer 500 and store no log once a credential passes its checks. The model stores only the declared columns, as the code evidently intends.
- `get_detailed_access_logs` is a raw SQL LEFT JOIN whose behaviour belongs to the SQL engine.
- `get_access_log`, `get_incident`, `get_users` and `delete_user` are not part of this model. They are single-row lookups, a page and a delete of the same shape as the modelled ones.
- The visitors router, the e-mail and scheduler services, the application setup and the seed-data scripts are not part of this model. Visitors are the set of existing visitor ids.
- The e-mail lookup of `create_user` uses ILIKE. It is modelled as case-insensitive equality: the wildcards `%` and `_` in an e-mail are not modelled.
- `lower()`, `isdigit()` and `int()` are modelled on ASCII text. Unicode letters and digits, and the surrounding whitespace and underscores `int()` accepts, are not modelled.
- Explicit `null` values in an update payload are modelled as omitted fields.
- Dates are day numbers, and times are seconds. Their `strftime` text is not modelled: the report's dates and raw rows carry numbers.
- The users' `created_at` and `updated_at` columns and the credentials' relationships are not modelled.
- Concurrency, transactions and rollback are not modelled. For `AccessLogs.CreateAccessLog`, `Incidents.CreateIncident` and `Users.CreateUser`, which catch commit errors, a commit failure is a parameter giving the exception text, or `None` when the commit succeeds. The other writing operations (`QrCodes.GenerateForUser`, `QrCodes.GenerateForVisitor`, `QrCodes.Scan`, `AccessLogs.UpdateAccessLog`, `AccessLogs.DeleteAccessLog`, `Incidents.UpdateIncident`, `Incidents.DeleteIncident`) catch nothing, and their commits are modelled as succeeding, with one exception: `QrCodes.Scan`, whose access type, stored unchecked, may be wider than its `String(10)` column. The model assumes an engine that refuses every over-long value at the commit (as PostgreSQL does for a value with non-space characters past the limit).
- `UserMessages.ERROR_NOT_ADMIN` and the `AccessLogMessages` and `IncidentMessages` classes are missing from the message file. As written, `app/schemas/access_log.py` imports `AccessLogMessages` and the `app.schemas` package imports that module, so every module importing `app.schemas`, all four routers included, fails to import and the application does not start; a non-admin login would also raise `AttributeError`, a 500 rather than the 403. Those errors are constructors here, and the routers and the 403 of the login are modelled as they are evidently intended.
- Pydantic reports all field errors of a payload. The model lists them in field order and does not model the error text.
- Users.UpdateUser: of the integrity errors a commit can raise, only a duplicate e-mail is modelled. Other constraint failures, reported as a generic database-validation error, are not.
- QrCodes.Scan: the sources do not name the database engine. PostgreSQL's silent truncation of a value whose extra characters are all spaces, and engines such as SQLite that do not enforce `String(10)`, are not modelled: for those the model's `AccessTypeTooLong` answer is where the database would store the (truncated) value instead.
- Negative `skip` and `limit` values are not modelled: both are natural numbers.
- Queries without ORDER BY let the database return matching rows in any order, and `.first()` may pick any matching row. The model fixes table (insertion) order wherever that happens: the pages of `AccessLogs.ListAccessLogs` and `Incidents.ListIncidents`; the duplicate check of `Users.Conflict` and `Users.CreateCheck`, where the database's choice decides between the e-mail and the document error when two users hold them; the id-or-document lookup of `Users.GetUserById`; the identifier match of `Users.LoginMatch` and `Users.Login`, which decides who logs in; and the report's log query, on which the order of `Reports.RawRows`, the 50-row cut of `Reports.HtmlRows` and the order of the daily buckets depend.
- The e-mail format check of `EmailStr` is not modelled.
- AccessLogs.PersonError: a payload reaches the router only after validation, so the router's own 400 branch is unreachable in practice. It is modelled anyway, and `ValidatedPayloadHasKnownType` states that it cannot fire.

=== FILE: access_logs.dfy ===
/**
  The access-log router: manual creation with a person-existence check,
  listing by workday with offset/limit, partial update and delete. The
  database commit is the only step that can fail for reasons outside the
  model; its failure text is a parameter (`None` when the commit succeeds).
*/
module AccessLogs {
  import opened Common
  import opened Text
  import opened Models
  import Schemas

  datatype AccessLogError =
    | EmployeeNotFound(personId: int)
    | VisitorNotFound(personId: int)
    | InvalidPersonType(personType: string)
    | ServerError(detail: string)
    | AccessLogNotFound

  function Status(e: AccessLogError): (s: nat)
    ensures s == 404 <==> e.EmployeeNotFound? || e.VisitorNotFound? || e.AccessLogNotFound?
    ensures s == 400 <==> e.InvalidPersonType?
    ensures s == 500 <==> e.ServerError?
  {
    match e
    case EmployeeNotFound(_) => 404
    case VisitorNotFound(_) => 404
    case InvalidPersonType(_) => 400
    case ServerError(_) => 500
    case AccessLogNotFound => 404
  }

  const CREATE_FAILURE_PREFIX: string := "Error al crear el registro de acceso: "

  // ---------------------------------------------------------------------
  // POST /access-logs/

  /** The person check of a manual log: the named employee or visitor must exist. */
  function PersonError(users: seq<User>, visitors: set<int>, p: Schemas.AccessLogCreate): (r: Option<AccessLogError>)
    ensures r.None? <==> (p.personType == EMPLOYEE && HasUser(users, p.personId))
                         || (p.personType == VISITOR && p.personId in visitors)
    ensures r == Some(InvalidPersonType(p.personType)) <==> p.personType != EMPLOYEE && p.personType != VISITOR
    ensures p.personType == EMPLOYEE && !HasUser(users, p.personId) ==> r == Some(EmployeeNotFound(p.personId))
    ensures p.personType == VISITOR && p.personId !in visitors ==> r == Some(VisitorNotFound(p.personId))
    ensures r.Some? ==> Status(r.value) != 500
  {
    if p.personType == EMPLOYEE then
      if HasUser(users, p.personId) then None else Some(EmployeeNotFound(p.personId))
    else if p.personType == VISITOR then
      if p.personId in visitors then None else Some(VisitorNotFound(p.personId))
    else Some(InvalidPersonType(p.personType))
  }

  /** A payload that passed validation never reaches the router's own 400 branch. */
  lemma ValidatedPayloadHasKnownType(users: seq<User>, visitors: set<int>, p: Schemas.AccessLogCreate)
    requires Schemas.AccessLogCreateErrors(p) == []
    ensures PersonError(users, visitors, p).None? || Status(PersonError(users, visitors, p).value) == 404
  {
  }

  /** The 500 raised for a failed commit: the failure text without a leading "NNN: ". */
  function CommitError(failure: string): (e: AccessLogError)
    ensures e.ServerError? && Status(e) == 500
    ensures e.detail == CREATE_FAILURE_PREFIX + StripStatusPrefix(failure)
  {
    ServerError(CREATE_FAILURE_PREFIX + StripStatusPrefix(failure))
  }

  /**
    `create_access_log`: person checks first (their 404/400 propagate as they
    are), then the insert. The stored row has the payload's fields, the
    workday the caller sent and `now` as its access time.
  */
  method CreateAccessLog(
    logs: AccessLogTable, users: UserTable, visitors: set<int>,
    p: Schemas.AccessLogCreate, now: int, commitFailure: Option<string>)
    returns (r: Result<AccessLog, AccessLogError>)
    requires logs.Valid()
    modifies logs
    ensures logs.Valid()
    ensures PersonError(users.rows, visitors, p).Some? ==>
      r == Err(PersonError(users.rows, visitors, p).value) && unchanged(logs)
    ensures PersonError(users.rows, visitors, p).None? && commitFailure.Some? ==>
      r == Err(CommitError(commitFailure.value)) && unchanged(logs)
    ensures PersonError(users.rows, visitors, p).None? && commitFailure.None? ==>
      && r == Ok(AccessLog(old(logs.nextId), p.personType, p.personId, p.accessType, now, p.workdayDate))
      && logs.rows == old(logs.rows) + [r.value]
      && logs.nextId == old(logs.nextId) + 1
  {
    var check := PersonError(users.rows, visitors, p);
    if check.Some? {
      return Err(check.value);
    }
    if commitFailure.Some? {
      return Err(CommitError(commitFailure.value));
    }
    var entry := AccessLog(logs.nextId, p.personType, p.personId, p.accessType, now, p.workdayDate);
    logs.rows := logs.rows + [entry];
    logs.nextId := logs.nextId + 1;
    r := Ok(entry);
  }

  /** A commit failure rendered as "<status>: <detail>" is reported with the bare detail. */
  lemma CommitErrorDropsStatus(status: nat, detail: string)
    ensures CommitError(DecimalText(status) + ": " + detail) == ServerError(CREATE_FAILURE_PREFIX + detail)
  {
    StripRendered(status, detail);
  }

  // ---------------------------------------------------------------------
  // GET /access-logs/

  /** The logs of the given workday, all logs when none is given; in table order. */
  function LogsOfDay(rows: seq<AccessLog>, workdayDate: Option<int>): (r: seq<AccessLog>)
    ensures |r| <= |rows|
    ensures forall l :: l in r <==> l in rows && (workdayDate.None? || l.workdayDate == workdayDate.value)
  {
    if workdayDate.Some? then Filter(rows, (l: AccessLog) => l.workdayDate == workdayDate.value) else rows
  }

  /** `get_access_logs`: the workday filter, then OFFSET `skip` LIMIT `limit`. */
  function ListAccessLogs(rows: seq<AccessLog>, skip: nat, limit: nat, workdayDate: Option<int>): (r: seq<AccessLog>)
    ensures |r| <= limit
    ensures forall l :: l in r ==> l in rows && (workdayDate.None? || l.workdayDate == workdayDate.value)
    ensures var m := LogsOfDay(rows, workdayDate);
      && |r| == Min(limit, if skip <= |m| then |m| - skip else 0)
      && forall i :: 0 <= i < |r| ==> r[i] == m[skip + i]
    ensures skip == 0 && |rows| <= limit ==>
      forall l :: l in rows && (workdayDate.None? || l.workdayDate == workdayDate.value) ==> l in r
  {
    var matching := LogsOfDay(rows, workdayDate);
    var r := Page(matching, skip, limit);
    assert forall l :: l in r ==> l in matching by {
      forall l | l in r ensures l in matching {
        var i :| 0 <= i < |r| && r[i] == l;
      }
    }
    assert skip == 0 && |matching| <= limit ==> r == matching;
    r
  }

  // ---------------------------------------------------------------------
  // PUT /access-logs/{id}

  /** One `setattr` of an update: only the access type and the workday exist in the update schema. */
  datatype LogField = SetAccessType(accessType: string) | SetWorkdayDate(workdayDate: int)

  function AssignLog(l: AccessLog, f: LogField): AccessLog
  {
    match f
    case SetAccessType(v) => l.(accessType := v)
    case SetWorkdayDate(v) => l.(workdayDate := v)
  }

  /** `update.model_dump(exclude_unset=True).items()`, in field order. */
  function LogUpdateFields(u: Schemas.AccessLogUpdate): (fs: seq<LogField>)
    ensures |fs| <= 2
  {
    (if u.accessType.Some? then [SetAccessType(u.accessType.value)] else [])
    + (if u.workdayDate.Some? then [SetWorkdayDate(u.workdayDate.value)] else [])
  }

  /** The intended effect of an update, field by field: a supplied field replaces the stored one. */
  function PatchLog(l: AccessLog, u: Schemas.AccessLogUpdate): (n: AccessLog)
    ensures n.id == l.id && n.personType == l.personType && n.personId == l.personId
    ensures n.accessTime == l.accessTime
    ensures n.accessType == (if u.accessType.Some? then u.accessType.value else l.accessType)
    ensures n.workdayDate == (if u.workdayDate.Some? then u.workdayDate.value else l.workdayDate)
  {
    AccessLog(l.id, l.personType, l.personId, u.accessType.GetOr(l.accessType), l.accessTime, u.workdayDate.GetOr(l.workdayDate))
  }

  /** The `setattr` loop over the supplied fields yields the field-by-field patch. */
  lemma SetAttrsPatchesLog(l: AccessLog, u: Schemas.AccessLogUpdate)
    ensures FoldFields(l, LogUpdateFields(u), AssignLog) == PatchLog(l, u)
  {
    var fs := LogUpdateFields(u);
    if |fs| == 2 {
      var first := SetAccessType(u.accessType.value);
      assert fs[..1] == [first] && fs[..1][..0] == [];
      assert FoldFields(l, fs[..1], AssignLog) == AssignLog(l, first);
    } else if |fs| == 1 {
      assert fs[..0] == [];
    }
  }

  /** `update_access_log`: 404 for an unknown id, otherwise only the supplied fields of that row change. */
  method UpdateAccessLog(logs: AccessLogTable, id: int, u: Schemas.AccessLogUpdate)
    returns (r: Result<AccessLog, AccessLogError>)
    requires logs.Valid()
    modifies logs
    ensures logs.Valid()
    ensures logs.nextId == old(logs.nextId)
    ensures old(logs.IndexOf(id)).None? ==> r == Err(AccessLogNotFound) && logs.rows == old(logs.rows)
    ensures old(logs.IndexOf(id)).Some? ==>
      var k := old(logs.IndexOf(id)).value;
      && r == Ok(PatchLog(old(logs.rows)[k], u))
      && logs.rows == old(logs.rows)[k := r.value]
  {
    var found := logs.IndexOf(id);
    if found.None? {
      return Err(AccessLogNotFound);
    }
    var k := found.value;
    var updated := SetAttrs(logs.rows[k], LogUpdateFields(u), AssignLog);
    SetAttrsPatchesLog(logs.rows[k], u);
    logs.rows := logs.rows[k := updated];
    r := Ok(updated);
  }

  // ---------------------------------------------------------------------
  // DELETE /access-logs/{id}

  /** With unique ids, removing the row at the position of `id` removes exactly the logs with that id. */
  lemma RemoveLogById(rows: seq<AccessLog>, k: nat, id: int)
    requires k < |rows| && rows[k].id == id
    requires forall i, j :: 0 <= i < j < |rows| ==> rows[i].id != rows[j].id
    ensures forall l :: l in RemoveAt(rows, k) <==> l in rows && l.id != id
  {
    var t := RemoveAt(rows, k);
    forall l | l in rows
      ensures l in t <==> l.id != id
    {
      var j :| 0 <= j < |rows| && rows[j] == l;
      if j < k {
        assert t[j] == l;
      } else if j > k {
        assert t[j - 1] == l;
      }
    }
  }

  /** `delete_access_log`: 404 for an unknown id, otherwise exactly the row with that id disappears. */
  method DeleteAccessLog(logs: AccessLogTable, id: int) returns (r: Result<(), AccessLogError>)
    requires logs.Valid()
    modifies logs
    ensures logs.Valid()
    ensures logs.nextId == old(logs.nextId)
    ensures old(logs.IndexOf(id)).None? ==> r == Err(AccessLogNotFound) && logs.rows == old(logs.rows)
    ensures old(logs.IndexOf(id)).Some? ==>
      r == Ok(()) && logs.rows == RemoveAt(old(logs.rows), old(logs.IndexOf(id)).value)
    ensures forall l :: l in logs.rows <==> l in old(logs.rows) && (r.Err? || l.id != id)
  {
    var found := logs.IndexOf(id);
    if found.None? {
      return Err(AccessLogNotFound);
    }
    var k := found.value;
    RemoveLogById(logs.rows, k, id);
    logs.rows := RemoveAt(logs.rows, k);
    r := Ok(());
  }
}

=== FILE: common.dfy ===
/**
  Shared vocabulary of the access-control service: optional values and
  results, time in whole seconds, the person reference carried by credentials
  and access logs, and the query helpers the routers use on in-memory tables
  (first match, filter, offset/limit, and the `setattr` loop of partial
  updates).
*/
module Common {

  datatype Option<+T> = None | Some(value: T)
  {
    function GetOr(default: T): T
    {
      match this
      case Some(v) => v
      case None => default
    }
  }

  datatype Result<+T, +E> = Ok(value: T) | Err(error: E)

  // ---------------------------------------------------------------------
  // Time: integer seconds since the Unix epoch, in UTC.

  const DAY: int := 86400
  const WEEK: int := 7 * DAY

  /** Calendar date (UTC) of an instant, as a day number since the epoch. */
  function DateOf(t: int): (d: int)
    ensures d * DAY <= t < d * DAY + DAY
  {
    t / DAY
  }

  // ---------------------------------------------------------------------
  // The two kinds of person and the strings the tables store for them.

  const EMPLOYEE: string := "employee"
  const VISITOR: string := "visitor"
  const ENTRY: string := "entry"
  const EXIT: string := "exit"
  const ADMIN: string := "admin"

  /** A credential or access event belongs to exactly one person. */
  datatype PersonRef = Employee(id: int) | Visitor(id: int)

  /** Python truthiness of a nullable integer column: None and 0 are false. */
  predicate Truthy(o: Option<int>)
  {
    o.Some? && o.value != 0
  }

  /** Python truthiness of an optional string query parameter. */
  predicate Given(o: Option<string>)
  {
    o.Some? && o.value != ""
  }

  function Min(a: int, b: int): int
  {
    if a <= b then a else b
  }

  // ---------------------------------------------------------------------
  // Query helpers.

  /** Index of the first element satisfying `p` (`query.filter(p).first()`). */
  function First<T>(s: seq<T>, p: T -> bool): (r: Option<nat>)
    ensures r.Some? ==> r.value < |s| && p(s[r.value])
    ensures r.Some? ==> forall j :: 0 <= j < r.value ==> !p(s[j])
    ensures r.None? <==> forall j :: 0 <= j < |s| ==> !p(s[j])
  {
    if s == [] then None
    else if p(s[0]) then Some(0)
    else
      match First(s[1..], p)
      case None => None
      case Some(k) => Some(k + 1)
  }

  /** The elements satisfying `p`, in their original order. */
  function Filter<T(!new)>(s: seq<T>, p: T -> bool): (r: seq<T>)
    ensures |r| <= |s|
    ensures forall x :: x in r <==> x in s && p(x)
  {
    if s == [] then []
    else (if p(s[0]) then [s[0]] else []) + Filter(s[1..], p)
  }

  /** Filtering keeps order: the filter of `s + [x]` is the filter of `s`, then `x` if it passes. */
  lemma {:induction false} FilterSnoc<T(!new)>(s: seq<T>, x: T, p: T -> bool)
    ensures Filter(s + [x], p) == Filter(s, p) + (if p(x) then [x] else [])
  {
    if s == [] {
      assert [] + [x] == [x];
    } else {
      assert (s + [x])[1..] == s[1..] + [x];
      FilterSnoc(s[1..], x, p);
    }
  }

  /** `OFFSET skip LIMIT limit`. */
  function Page<T>(s: seq<T>, skip: nat, limit: nat): (r: seq<T>)
    ensures |r| == Min(limit, if skip <= |s| then |s| - skip else 0)
    ensures forall i :: 0 <= i < |r| ==> skip + i < |s| && r[i] == s[skip + i]
  {
    var rest := if skip <= |s| then s[skip..] else [];
    if limit <= |rest| then rest[..limit] else rest
  }

  /** The sequence without its element at index `k` (a row delete). */
  function RemoveAt<T>(s: seq<T>, k: nat): (r: seq<T>)
    requires k < |s|
    ensures |r| == |s| - 1
    ensures forall i :: 0 <= i < k ==> r[i] == s[i]
    ensures forall i :: k <= i < |r| ==> r[i] == s[i + 1]
  {
    s[..k] + s[k + 1..]
  }

  // ---------------------------------------------------------------------
  // Partial update: `for field, value in update_data.items(): setattr(row, field, value)`.

  /** The row after assigning the fields `fs` one after the other. */
  function FoldFields<T, F>(x: T, fs: seq<F>, assign: (T, F) -> T): T
    decreases |fs|
  {
    if fs == [] then x else assign(FoldFields(x, fs[..|fs| - 1], assign), fs[|fs| - 1])
  }

  /** Assigning `a` and then `b` is assigning `a + b`. */
  lemma {:induction false} FoldFieldsAppend<T, F>(x: T, a: seq<F>, b: seq<F>, assign: (T, F) -> T)
    ensures FoldFields(x, a + b, assign) == FoldFields(FoldFields(x, a, assign), b, assign)
    decreases |b|
  {
    if b == [] {
      assert a + b == a;
    } else {
      FoldFieldsAppend(x, a, b[..|b| - 1], assign);
      assert (a + b)[..|a + b| - 1] == a + b[..|b| - 1];
    }
  }

  /** The `setattr` loop itself. */
  method SetAttrs<T, F>(x: T, fs: seq<F>, assign: (T, F) -> T) returns (y: T)
    ensures y == FoldFields(x, fs, assign)
  {
    y := x;
    for i := 0 to |fs|
      invariant y == FoldFields(x, fs[..i], assign)
    {
      assert fs[..i + 1][..i] == fs[..i];
      y := assign(y, fs[i]);
    }
    assert fs[..|fs|] == fs;
  }
}

=== FILE: incidents.dfy ===
/**
  The incident router: creation with an optional person reference, listing
  with optional filters and offset/limit, partial update and delete. As in
  the access-log router, the commit failure text is a parameter.
*/
module Incidents {
  import opened Common
  import opened Models
  import Schemas

  datatype IncidentError =
    | PersonNotFound
    | ServerError(detail: string)
    | IncidentNotFound

  function Status(e: IncidentError): (s: nat)
    ensures s == 404 <==> e.PersonNotFound? || e.IncidentNotFound?
    ensures s == 500 <==> e.ServerError?
  {
    match e
    case PersonNotFound => 404
    case ServerError(_) => 500
    case IncidentNotFound => 404
  }

  // ---------------------------------------------------------------------
  // POST /incidents/

  /**
    The person lookup: a user when the person type is "employee", a visitor
    for any other type. A missing person id matches no row.
  */
  function PersonFound(users: seq<User>, visitors: set<int>, p: Schemas.IncidentCreate): (found: bool)
    ensures found ==> p.personId.Some?
    ensures p.personType == EMPLOYEE ==> (found <==> p.personId.Some? && HasUser(users, p.personId.value))
    ensures p.personType != EMPLOYEE ==> (found <==> p.personId.Some? && p.personId.value in visitors)
  {
    match p.personId
    case None => false
    case Some(id) => if p.personType == EMPLOYEE then HasUser(users, id) else id in visitors
  }

  /** Not-found is raised only for a truthy person id whose lookup fails. */
  function PersonError(users: seq<User>, visitors: set<int>, p: Schemas.IncidentCreate): (r: Option<IncidentError>)
    ensures r.Some? ==> r.value == PersonNotFound
    ensures r.Some? <==> Truthy(p.personId) && !PersonFound(users, visitors, p)
    ensures p.personId.None? || p.personId == Some(0) ==> r.None?
  {
    if Truthy(p.personId) && !PersonFound(users, visitors, p) then Some(PersonNotFound) else None
  }

  /** `create_incident`: the person check, then the insert; a failed commit is a 500 carrying the failure text. */
  method CreateIncident(
    incidents: IncidentTable, users: UserTable, visitors: set<int>,
    p: Schemas.IncidentCreate, now: int, commitFailure: Option<string>)
    returns (r: Result<Incident, IncidentError>)
    requires incidents.Valid()
    modifies incidents
    ensures incidents.Valid()
    ensures PersonError(users.rows, visitors, p).Some? ==> r == Err(PersonNotFound) && unchanged(incidents)
    ensures PersonError(users.rows, visitors, p).None? && commitFailure.Some? ==>
      r == Err(ServerError(commitFailure.value)) && unchanged(incidents)
    ensures PersonError(users.rows, visitors, p).None? && commitFailure.None? ==>
      && r == Ok(Incident(old(incidents.nextId), p.personType, p.personId, p.incidentType, p.description, now))
      && incidents.rows == old(incidents.rows) + [r.value]
      && incidents.nextId == old(incidents.nextId) + 1
  {
    if PersonError(users.rows, visitors, p).Some? {
      return Err(PersonNotFound);
    }
    if commitFailure.Some? {
      return Err(ServerError(commitFailure.value));
    }
    var x := Incident(incidents.nextId, p.personType, p.personId, p.incidentType, p.description, now);
    incidents.rows := incidents.rows + [x];
    incidents.nextId := incidents.nextId + 1;
    r := Ok(x);
  }

  // ---------------------------------------------------------------------
  // GET /incidents/

  /** An incident passes the list filters; an empty or missing filter value filters nothing. */
  predicate Selected(x: Incident, incidentType: Option<string>, personType: Option<string>)
  {
    && (Given(incidentType) ==> x.incidentType == incidentType.value)
    && (Given(personType) ==> x.personType == personType.value)
  }

  /** The incidents passing the given filters, in table order. */
  function SelectedIncidents(rows: seq<Incident>, incidentType: Option<string>, personType: Option<string>): (r: seq<Incident>)
    ensures |r| <= |rows|
    ensures forall x :: x in r <==> x in rows && Selected(x, incidentType, personType)
  {
    var byType := if Given(incidentType) then Filter(rows, (x: Incident) => x.incidentType == incidentType.value) else rows;
    if Given(personType) then Filter(byType, (x: Incident) => x.personType == personType.value) else byType
  }

  /** `get_incidents`: the optional filters, then OFFSET `skip` LIMIT `limit`. */
  function ListIncidents(
    rows: seq<Incident>, skip: nat, limit: nat,
    incidentType: Option<string>, personType: Option<string>): (r: seq<Incident>)
    ensures |r| <= limit
    ensures forall x :: x in r ==> x in rows && Selected(x, incidentType, personType)
    ensures var m := SelectedIncidents(rows, incidentType, personType);
      && |r| == Min(limit, if skip <= |m| then |m| - skip else 0)
      && forall i :: 0 <= i < |r| ==> r[i] == m[skip + i]
    ensures skip == 0 && |rows| <= limit ==>
      forall x :: x in rows && Selected(x, incidentType, personType) ==> x in r
  {
    var matching := SelectedIncidents(rows, incidentType, personType);
    var r := Page(matching, skip, limit);
    assert forall x :: x in r ==> x in matching by {
      forall x | x in r ensures x in matching {
        var i :| 0 <= i < |r| && r[i] == x;
      }
    }
    assert skip == 0 && |matching| <= limit ==> r == matching;
    r
  }

  // ---------------------------------------------------------------------
  // PUT /incidents/{id}

  datatype IncidentField =
    | SetPersonType(personType: string)
    | SetPersonId(personId: int)
    | SetIncidentType(incidentType: string)
    | SetDescription(description: string)

  function AssignIncident(x: Incident, f: IncidentField): Incident
  {
    match f
    case SetPersonType(v) => x.(personType := v)
    case SetPersonId(v) => x.(personId := Some(v))
    case SetIncidentType(v) => x.(incidentType := v)
    case SetDescription(v) => x.(description := v)
  }

  /** The supplied person fields of an update, in the schema's field order. */
  function PersonFields(u: Schemas.IncidentUpdate): (fs: seq<IncidentField>)
    ensures |fs| <= 2
  {
    (if u.personType.Some? then [SetPersonType(u.personType.value)] else [])
    + (if u.personId.Some? then [SetPersonId(u.personId.value)] else [])
  }

  /** The supplied incident fields of an update (type and description), in the schema's field order. */
  function KindFields(u: Schemas.IncidentUpdate): (fs: seq<IncidentField>)
    ensures |fs| <= 2
  {
    (if u.incidentType.Some? then [SetIncidentType(u.incidentType.value)] else [])
    + (if u.description.Some? then [SetDescription(u.description.value)] else [])
  }

  /** The supplied fields of an update, in the schema's field order. */
  function IncidentUpdateFields(u: Schemas.IncidentUpdate): seq<IncidentField>
  {
    PersonFields(u) + KindFields(u)
  }

  /** The intended effect of an update: each supplied field replaces the stored one, the rest stay. */
  function PatchIncident(x: Incident, u: Schemas.IncidentUpdate): (n: Incident)
    ensures n.id == x.id && n.reportedAt == x.reportedAt
    ensures n.personType == (if u.personType.Some? then u.personType.value else x.personType)
    ensures n.personId == (if u.personId.Some? then u.personId else x.personId)
    ensures n.incidentType == (if u.incidentType.Some? then u.incidentType.value else x.incidentType)
    ensures n.description == (if u.description.Some? then u.description.value else x.description)
  {
    Incident(
      x.id,
      u.personType.GetOr(x.personType),
      if u.personId.Some? then u.personId else x.personId,
      u.incidentType.GetOr(x.incidentType),
      u.description.GetOr(x.description),
      x.reportedAt)
  }

  /** Assigning zero or one field. */
  lemma FoldAtMostOne(x: Incident, fs: seq<IncidentField>)
    requires |fs| <= 1
    ensures FoldFields(x, fs, AssignIncident) == if fs == [] then x else AssignIncident(x, fs[0])
  {
    if fs != [] {
      assert fs[..0] == [];
    }
  }

  /** Folding two optional one-field segments one after the other. */
  lemma FoldTwo(x: Incident, a: seq<IncidentField>, b: seq<IncidentField>)
    requires |a| <= 1 && |b| <= 1
    ensures var xa := if a == [] then x else AssignIncident(x, a[0]);
            FoldFields(x, a + b, AssignIncident) == if b == [] then xa else AssignIncident(xa, b[0])
  {
    FoldFieldsAppend(x, a, b, AssignIncident);
    FoldAtMostOne(x, a);
    FoldAtMostOne(FoldFields(x, a, AssignIncident), b);
  }

  lemma PersonFieldsPatch(x: Incident, u: Schemas.IncidentUpdate)
    ensures FoldFields(x, PersonFields(u), AssignIncident) ==
            x.(personType := u.personType.GetOr(x.personType),
               personId := if u.personId.Some? then u.personId else x.personId)
  {
    FoldTwo(x,
      if u.personType.Some? then [SetPersonType(u.personType.value)] else [],
      if u.personId.Some? then [SetPersonId(u.personId.value)] else []);
  }

  lemma KindFieldsPatch(x: Incident, u: Schemas.IncidentUpdate)
    ensures FoldFields(x, KindFields(u), AssignIncident) ==
            x.(incidentType := u.incidentType.GetOr(x.incidentType), description := u.description.GetOr(x.description))
  {
    FoldTwo(x,
      if u.incidentType.Some? then [SetIncidentType(u.incidentType.value)] else [],
      if u.description.Some? then [SetDescription(u.description.value)] else []);
  }

  /** The `setattr` loop over the supplied fields yields the field-by-field patch. */
  lemma SetAttrsPatchesIncident(x: Incident, u: Schemas.IncidentUpdate)
    ensures FoldFields(x, IncidentUpdateFields(u), AssignIncident) == PatchIncident(x, u)
  {
    FoldFieldsAppend(x, PersonFields(u), KindFields(u), AssignIncident);
    PersonFieldsPatch(x, u);
    KindFieldsPatch(FoldFields(x, PersonFields(u), AssignIncident), u);
  }

  /** `update_incident`: 404 for an unknown id, otherwise only the supplied fields of that row change. */
  method UpdateIncident(incidents: IncidentTable, id: int, u: Schemas.IncidentUpdate)
    returns (r: Result<Incident, IncidentError>)
    requires incidents.Valid()
    modifies incidents
    ensures incidents.Valid()
    ensures incidents.nextId == old(incidents.nextId)
    ensures old(incidents.IndexOf(id)).None? ==> r == Err(IncidentNotFound) && incidents.rows == old(incidents.rows)
    ensures old(incidents.IndexOf(id)).Some? ==>
      var k := old(incidents.IndexOf(id)).value;
      && r == Ok(PatchIncident(old(incidents.rows)[k], u))
      && incidents.rows == old(incidents.rows)[k := r.value]
  {
    var found := incidents.IndexOf(id);
    if found.None? {
      return Err(IncidentNotFound);
    }
    var k := found.value;
    var updated := SetAttrs(incidents.rows[k], IncidentUpdateFields(u), AssignIncident);
    SetAttrsPatchesIncident(incidents.rows[k], u);
    incidents.rows := incidents.rows[k := updated];
    r := Ok(updated);
  }

  // ---------------------------------------------------------------------
  // DELETE /incidents/{id}

  /** With unique ids, removing the row at the position of `id` removes exactly the incidents with that id. */
  lemma RemoveIncidentById(rows: seq<Incident>, k: nat, id: int)
    requires k < |rows| && rows[k].id == id
    requires forall i, j :: 0 <= i < j < |rows| ==> rows[i].id != rows[j].id
    ensures forall x :: x in RemoveAt(rows, k) <==> x in rows && x.id != id
  {
    var t := RemoveAt(rows, k);
    forall x | x in rows
      ensures x in t <==> x.id != id
    {
      var j :| 0 <= j < |rows| && rows[j] == x;
      if j < k {
        assert t[j] == x;
      } else if j > k {
        assert t[j - 1] == x;
      }
    }
  }

  /** `delete_incident`: 404 for an unknown id, otherwise exactly the row with that id disappears. */
  method DeleteIncident(incidents: IncidentTable, id: int) returns (r: Result<(), IncidentError>)
    requires incidents.Valid()
    modifies incidents
    ensures incidents.Valid()
    ensures incidents.nextId == old(incidents.nextId)
    ensures old(incidents.IndexOf(id)).None? ==> r == Err(IncidentNotFound) && incidents.rows == old(incidents.rows)
    ensures old(incidents.IndexOf(id)).Some? ==>
      r == Ok(()) && incidents.rows == RemoveAt(old(incidents.rows), old(incidents.IndexOf(id)).value)
    ensures forall x :: x in incidents.rows <==> x in old(incidents.rows) && (r.Err? || x.id != id)
  {
    var found := incidents.IndexOf(id);
    if found.None? {
      return Err(IncidentNotFound);
    }
    var k := found.value;
    RemoveIncidentById(incidents.rows, k, id);
    incidents.rows := RemoveAt(incidents.rows, k);
    r := Ok(());
  }
}

=== FILE: models.dfy ===
/**
  The persisted entities and their tables. Each table is an object whose row
  sequence the routers replace on every insert, update and delete; `nextId`
  plays the part of the autoincrement primary key, which starts at 1.
  Visitors are not a table of this model: routers receive the set of
  existing visitor ids.
*/
module Models {
  import opened Common

  datatype User = User(
    id: int,
    firstName: string,
    lastName: string,
    documentNumber: string,
    email: string,
    userType: string,
    password: Option<string>,
    imageHash: string)

  /** A scannable credential ("QR code"). Its owner is structural: exactly one person. */
  datatype Credential = Credential(
    id: int,
    code: string,
    owner: PersonRef,
    isActive: bool,
    createdAt: int,
    expiresAt: Option<int>)
  {
    /** The nullable `user_id` column. */
    function UserId(): (r: Option<int>)
      ensures r.Some? <==> owner.Employee?
      ensures r.Some? ==> r.value == owner.id
    {
      if owner.Employee? then Some(owner.id) else None
    }

    /** The nullable `visitor_id` column. */
    function VisitorId(): (r: Option<int>)
      ensures r.Some? <==> owner.Visitor?
      ensures r.Some? ==> r.value == owner.id
    {
      if owner.Visitor? then Some(owner.id) else None
    }
  }

  /** The width of the `access_type` column, `String(10)`: the database refuses a longer value. */
  const ACCESS_TYPE_WIDTH: nat := 10

  datatype AccessLog = AccessLog(
    id: int,
    personType: string,
    personId: int,
    accessType: string,
    accessTime: int,
    workdayDate: int)

  datatype Incident = Incident(
    id: int,
    personType: string,
    personId: Option<int>,
    incidentType: string,
    description: string,
    reportedAt: int)

  /** Some row of the user table has primary key `id`. */
  predicate HasUser(rows: seq<User>, id: int)
  {
    exists i :: 0 <= i < |rows| && rows[i].id == id
  }

  /** Primary key below `nextId`, and the unique `email` and `document_number` columns. */
  ghost predicate UsersKeyed(rows: seq<User>, nextId: int)
  {
    && 1 <= nextId
    && (forall i :: 0 <= i < |rows| ==> 1 <= rows[i].id < nextId)
    && (forall i, j :: 0 <= i < j < |rows| ==> rows[i].id != rows[j].id)
    && (forall i, j :: 0 <= i < j < |rows| ==> rows[i].email != rows[j].email)
    && (forall i, j :: 0 <= i < j < |rows| ==> rows[i].documentNumber != rows[j].documentNumber)
  }

  class UserTable {
    var rows: seq<User>
    var nextId: int

    ghost predicate Valid()
      reads this
    {
      UsersKeyed(rows, nextId)
    }

    constructor ()
      ensures Valid() && rows == [] && nextId == 1
    {
      rows := [];
      nextId := 1;
    }

    predicate HasId(id: int)
      reads this
    {
      HasUser(rows, id)
    }

    /** Position of the row with primary key `id`. */
    function IndexOf(id: int): (r: Option<nat>)
      reads this
      ensures r.Some? ==> r.value < |rows| && rows[r.value].id == id
      ensures r.None? <==> !HasId(id)
    {
      First(rows, (u: User) => u.id == id)
    }
  }

  /** Primary key below `nextId`, the unique `code` column, and employee owners with a positive (truthy) id. */
  ghost predicate CredentialsKeyed(rows: seq<Credential>, nextId: int)
  {
    && 1 <= nextId
    && (forall i :: 0 <= i < |rows| ==> 1 <= rows[i].id < nextId)
    && (forall i, j :: 0 <= i < j < |rows| ==> rows[i].id != rows[j].id)
    && (forall i, j :: 0 <= i < j < |rows| ==> rows[i].code != rows[j].code)
    && (forall i :: 0 <= i < |rows| && rows[i].owner.Employee? ==> rows[i].owner.id >= 1)
  }

  class CredentialTable {
    var rows: seq<Credential>
    var nextId: int

    ghost predicate Valid()
      reads this
    {
      CredentialsKeyed(rows, nextId)
    }

    constructor ()
      ensures Valid() && rows == [] && nextId == 1
    {
      rows := [];
      nextId := 1;
    }
  }

  class AccessLogTable {
    var rows: seq<AccessLog>
    var nextId: int

    ghost predicate Valid()
      reads this
    {
      && 1 <= nextId
      && (forall i :: 0 <= i < |rows| ==> 1 <= rows[i].id < nextId)
      && (forall i, j :: 0 <= i < j < |rows| ==> rows[i].id != rows[j].id)
    }

    constructor ()
      ensures Valid() && rows == [] && nextId == 1
    {
      rows := [];
      nextId := 1;
    }

    /** Position of the row with primary key `id`. */
    function IndexOf(id: int): (r: Option<nat>)
      reads this
      ensures r.Some? ==> r.value < |rows| && rows[r.value].id == id
      ensures r.None? <==> forall i :: 0 <= i < |rows| ==> rows[i].id != id
    {
      First(rows, (l: AccessLog) => l.id == id)
    }
  }

  class IncidentTable {
    var rows: seq<Incident>
    var nextId: int

    ghost predicate Valid()
      reads this
    {
      && 1 <= nextId
      && (forall i :: 0 <= i < |rows| ==> 1 <= rows[i].id < nextId)
      && (forall i, j :: 0 <= i < j < |rows| ==> rows[i].id != rows[j].id)
    }

    constructor ()
      ensures Valid() && rows == [] && nextId == 1
    {
      rows := [];
      nextId := 1;
    }

    /** Position of the row with primary key `id`. */
    function IndexOf(id: int): (r: Option<nat>)
      reads this
      ensures r.Some? ==> r.value < |rows| && rows[r.value].id == id
      ensures r.None? <==> forall i :: 0 <= i < |rows| ==> rows[i].id != id
    {
      First(rows, (x: Incident) => x.id == id)
    }
  }
}

=== FILE: qr_codes.dfy ===
/**
  Credential lifecycle and the scan-to-log path: issuing a credential for a
  user or a visitor, the checks the image endpoint applies, scanning a code
  (directly or from a decoded image) and the access-log row a scan appends.
  The code generator (uuid4) and the image decoder are outside the model:
  the fresh code and the decoder's results are parameters.
*/
module QrCodes {
  import opened Common
  import opened Models

  /** A credential is valid for 24 hours after it is issued. */
  const VALIDITY: int := 24 * 3600

  datatype QrError =
    | UserNotFound(userId: int)
    | VisitorNotFound(visitorId: int)
    | CredentialNotFound(qrCodeId: int)
    | InvalidQrCode
    | NotActive
    | Expired
    | InvalidAccessType
    | NoQrCodeFound
    | AccessTypeTooLong

  /** The HTTP status each error is raised with. */
  function Status(e: QrError): (s: nat)
    ensures s == 404 <==> e.UserNotFound? || e.VisitorNotFound? || e.CredentialNotFound? || e.InvalidQrCode?
    ensures s == 500 <==> e.AccessTypeTooLong?
    ensures s == 404 || s == 400 || s == 500
  {
    match e
    case UserNotFound(_) => 404
    case VisitorNotFound(_) => 404
    case CredentialNotFound(_) => 404
    case InvalidQrCode => 404
    case AccessTypeTooLong => 500
    case _ => 400
  }

  ghost predicate CodesDistinct(rows: seq<Credential>)
  {
    forall i, j :: 0 <= i < j < |rows| ==> rows[i].code != rows[j].code
  }

  ghost predicate IdsDistinct(rows: seq<Credential>)
  {
    forall i, j :: 0 <= i < j < |rows| ==> rows[i].id != rows[j].id
  }

  ghost predicate OwnersKnown(rows: seq<Credential>)
  {
    forall c :: c in rows && c.owner.Employee? ==> c.owner.id >= 1
  }

  /** `query(QRCode).filter(QRCode.code == code).first()` */
  function FindByCode(rows: seq<Credential>, code: string): (r: Option<Credential>)
    ensures r.Some? ==> r.value in rows && r.value.code == code
    ensures r.None? <==> forall c :: c in rows ==> c.code != code
  {
    match First(rows, (c: Credential) => c.code == code)
    case None => None
    case Some(i) => Some(rows[i])
  }

  /** `query(QRCode).filter(QRCode.id == id).first()` */
  function FindById(rows: seq<Credential>, id: int): (r: Option<Credential>)
    ensures r.Some? ==> r.value in rows && r.value.id == id
    ensures r.None? <==> forall c :: c in rows ==> c.id != id
  {
    match First(rows, (c: Credential) => c.id == id)
    case None => None
    case Some(i) => Some(rows[i])
  }

  /** With unique codes, looking a stored credential up by its code finds exactly that credential. */
  lemma FindByCodeExact(rows: seq<Credential>, c: Credential)
    requires CodesDistinct(rows) && c in rows
    ensures FindByCode(rows, c.code) == Some(c)
  {
    var m :| 0 <= m < |rows| && rows[m] == c;
    var k := First(rows, (x: Credential) => x.code == c.code).value;
  }

  /** With unique ids, looking a stored credential up by its id finds exactly that credential. */
  lemma FindByIdExact(rows: seq<Credential>, c: Credential)
    requires IdsDistinct(rows) && c in rows
    ensures FindById(rows, c.id) == Some(c)
  {
    var m :| 0 <= m < |rows| && rows[m] == c;
    var k := First(rows, (x: Credential) => x.id == c.id).value;
  }

  /**
    The checks every use of a credential applies, in this order: not found,
    inactive, expired. A credential is still accepted at its expiry instant.
  */
  function Check(found: Option<Credential>, notFound: QrError, now: int): (r: Result<Credential, QrError>)
    ensures found.None? ==> r == Err(notFound)
    ensures found.Some? && !found.value.isActive ==> r == Err(NotActive)
    ensures found.Some? && found.value.isActive && found.value.expiresAt.Some? && found.value.expiresAt.value < now
            ==> r == Err(Expired)
    ensures r.Ok? <==> found.Some? && found.value.isActive
                       && (found.value.expiresAt.None? || now <= found.value.expiresAt.value)
    ensures r.Ok? ==> r.value == found.value
  {
    match found
    case None => Err(notFound)
    case Some(c) =>
      if !c.isActive then Err(NotActive)
      else if c.expiresAt.Some? && c.expiresAt.value < now then Err(Expired)
      else Ok(c)
  }

  // ---------------------------------------------------------------------
  // Issuing

  /** Appending a credential with the next id and a fresh code keeps the table's keys. */
  lemma AppendKeepsKeys(rows: seq<Credential>, nextId: int, c: Credential)
    requires CredentialsKeyed(rows, nextId)
    requires c.id == nextId && (c.owner.Employee? ==> c.owner.id >= 1)
    requires forall x :: x in rows ==> x.code != c.code
    ensures CredentialsKeyed(rows + [c], nextId + 1) && CodesDistinct(rows + [c])
  {
    var t := rows + [c];
    forall i, j | 0 <= i < j < |t|
      ensures t[i].code != t[j].code
    {
      if j == |rows| {
        assert t[i] == rows[i] && t[i] in rows;
      }
    }
  }

  method Issue(creds: CredentialTable, owner: PersonRef, code: string, now: int) returns (c: Credential)
    requires creds.Valid()
    requires owner.Employee? ==> owner.id >= 1
    requires forall x :: x in creds.rows ==> x.code != code
    modifies creds
    ensures creds.Valid()
    ensures c == Credential(old(creds.nextId), code, owner, true, now, Some(now + VALIDITY))
    ensures creds.rows == old(creds.rows) + [c] && creds.nextId == old(creds.nextId) + 1
    ensures FindByCode(creds.rows, code) == Some(c)
  {
    c := Credential(creds.nextId, code, owner, true, now, Some(now + VALIDITY));
    AppendKeepsKeys(creds.rows, creds.nextId, c);
    creds.rows := creds.rows + [c];
    creds.nextId := creds.nextId + 1;
    FindByCodeExact(creds.rows, c);
  }

  /** POST /qr-codes/generate/user/{user_id}; `code` is the fresh uuid4 text. */
  method GenerateForUser(creds: CredentialTable, users: UserTable, userId: int, code: string, now: int)
    returns (r: Result<Credential, QrError>)
    requires creds.Valid() && users.Valid()
    requires forall x :: x in creds.rows ==> x.code != code
    modifies creds
    ensures creds.Valid()
    ensures !users.HasId(userId) ==>
      r == Err(UserNotFound(userId)) && creds.rows == old(creds.rows) && creds.nextId == old(creds.nextId)
    ensures users.HasId(userId) ==>
      && r == Ok(Credential(old(creds.nextId), code, Employee(userId), true, now, Some(now + VALIDITY)))
      && creds.rows == old(creds.rows) + [r.value]
      && creds.nextId == old(creds.nextId) + 1
      && FindByCode(creds.rows, code) == Some(r.value)
  {
    if !users.HasId(userId) {
      return Err(UserNotFound(userId));
    }
    var c := Issue(creds, Employee(userId), code, now);
    r := Ok(c);
  }

  /** POST /qr-codes/generate/visitor/{visitor_id}; `visitors` holds the existing visitor ids. */
  method GenerateForVisitor(creds: CredentialTable, visitors: set<int>, visitorId: int, code: string, now: int)
    returns (r: Result<Credential, QrError>)
    requires creds.Valid()
    requires forall x :: x in creds.rows ==> x.code != code
    modifies creds
    ensures creds.Valid()
    ensures visitorId !in visitors ==>
      r == Err(VisitorNotFound(visitorId)) && creds.rows == old(creds.rows) && creds.nextId == old(creds.nextId)
    ensures visitorId in visitors ==>
      && r == Ok(Credential(old(creds.nextId), code, Visitor(visitorId), true, now, Some(now + VALIDITY)))
      && creds.rows == old(creds.rows) + [r.value]
      && creds.nextId == old(creds.nextId) + 1
      && FindByCode(creds.rows, code) == Some(r.value)
  {
    if visitorId !in visitors {
      return Err(VisitorNotFound(visitorId));
    }
    var c := Issue(creds, Visitor(visitorId), code, now);
    r := Ok(c);
  }

  /**
    A credential freshly issued at `issuedAt` is accepted by a scan of its code
    up to and including `issuedAt + 24h`, and reported expired after that.
  */
  lemma FreshCredentialWindow(rows: seq<Credential>, c: Credential, issuedAt: int, now: int)
    requires FindByCode(rows, c.code) == Some(c)
    requires c.isActive && c.expiresAt == Some(issuedAt + VALIDITY)
    ensures Check(FindByCode(rows, c.code), InvalidQrCode, now).Ok? <==> now <= issuedAt + VALIDITY
    ensures now > issuedAt + VALIDITY ==> Check(FindByCode(rows, c.code), InvalidQrCode, now) == Err(Expired)
  {
  }

  // ---------------------------------------------------------------------
  // GET /qr-codes/image/{qr_code_id}

  /** The payload the image endpoint would render, after the same three checks keyed by id. */
  function ImagePayload(rows: seq<Credential>, qrCodeId: int, now: int): (r: Result<string, QrError>)
    ensures r.Ok? ==> exists c :: c in rows && c.id == qrCodeId && r.value == c.code
    ensures (forall c :: c in rows ==> c.id != qrCodeId) ==> r == Err(CredentialNotFound(qrCodeId))
    ensures r.Ok? <==>
      && FindById(rows, qrCodeId).Some?
      && FindById(rows, qrCodeId).value.isActive
      && (FindById(rows, qrCodeId).value.expiresAt.None? || now <= FindById(rows, qrCodeId).value.expiresAt.value)
    ensures r.Ok? ==> r.value == FindById(rows, qrCodeId).value.code
  {
    match Check(FindById(rows, qrCodeId), CredentialNotFound(qrCodeId), now)
    case Ok(c) => Ok(c.code)
    case Err(e) => Err(e)
  }

  /**
    For a stored credential, the image endpoint (keyed by id) and a scan (keyed
    by code) agree: both accept it or both reject it for the same reason, and
    the payload the image carries scans back to the same credential.
  */
  lemma ImageAgreesWithScan(rows: seq<Credential>, c: Credential, now: int)
    requires CodesDistinct(rows) && IdsDistinct(rows) && c in rows
    ensures ImagePayload(rows, c.id, now).Ok? <==> Check(FindByCode(rows, c.code), InvalidQrCode, now).Ok?
    ensures ImagePayload(rows, c.id, now).Err? ==>
              ImagePayload(rows, c.id, now).error == Check(FindByCode(rows, c.code), InvalidQrCode, now).error
    ensures ImagePayload(rows, c.id, now).Ok? ==>
              FindByCode(rows, ImagePayload(rows, c.id, now).value) == Some(c)
  {
    FindByCodeExact(rows, c);
    FindByIdExact(rows, c);
  }

  // ---------------------------------------------------------------------
  // Scanning

  /**
    The access-log row written for a scan of credential `c`: the person type is
    "employee" exactly when the `user_id` column is set, the person id is the
    owner's id, the time is `now` and the workday is the calendar date of `now`.
  */
  function ScanEntry(c: Credential, accessType: string, now: int, id: int): (l: AccessLog)
    requires c.owner.Employee? ==> c.owner.id != 0
    ensures l.personType == EMPLOYEE <==> c.UserId().Some?
    ensures l.personType == VISITOR <==> c.VisitorId().Some?
    ensures l.personId == c.owner.id
    ensures l.id == id && l.accessType == accessType
    ensures l.accessTime == now && l.workdayDate == DateOf(now)
  {
    var employee := Truthy(c.UserId());
    AccessLog(
      id,
      if employee then EMPLOYEE else VISITOR,
      if employee then c.UserId().value else c.VisitorId().value,
      accessType,
      now,
      DateOf(now))
  }

  /**
    What scanning `code` does to the access-log table: one new row on success,
    nothing otherwise. A passing credential with an access type wider than the
    column fails at the commit, uncaught: a 500 and no new row.
  */
  ghost predicate ScanOutcome(
    credentials: seq<Credential>, code: string, accessType: string, now: int,
    before: seq<AccessLog>, nextBefore: int, after: seq<AccessLog>, nextAfter: int,
    r: Result<AccessLog, QrError>)
    requires OwnersKnown(credentials)
  {
    match Check(FindByCode(credentials, code), InvalidQrCode, now)
    case Err(e) => r == Err(e) && after == before && nextAfter == nextBefore
    case Ok(c) =>
      if |accessType| > ACCESS_TYPE_WIDTH then
        r == Err(AccessTypeTooLong) && after == before && nextAfter == nextBefore
      else
        && r == Ok(ScanEntry(c, accessType, now, nextBefore))
        && after == before + [r.value]
        && nextAfter == nextBefore + 1
  }

  /**
    POST /qr-codes/scan: the access type is stored as given, unchecked, so only
    the column width can refuse it.
  */
  method Scan(creds: CredentialTable, logs: AccessLogTable, code: string, accessType: string, now: int)
    returns (r: Result<AccessLog, QrError>)
    requires creds.Valid() && logs.Valid()
    modifies logs
    ensures logs.Valid()
    ensures OwnersKnown(creds.rows)
    ensures ScanOutcome(creds.rows, code, accessType, now,
                        old(logs.rows), old(logs.nextId), logs.rows, logs.nextId, r)
  {
    var check := Check(FindByCode(creds.rows, code), InvalidQrCode, now);
    if check.Err? {
      return Err(check.error);
    }
    var c := check.value;
    if |accessType| > ACCESS_TYPE_WIDTH {
      return Err(AccessTypeTooLong);
    }
    var entry := ScanEntry(c, accessType, now, logs.nextId);
    logs.rows := logs.rows + [entry];
    logs.nextId := logs.nextId + 1;
    r := Ok(entry);
  }

  /**
    POST /qr-codes/scan-image: the access type must be "entry" or "exit" before
    anything else happens; `decoded` is what the image decoder found, and the
    first result is used; from there on it is a scan.
  */
  method ScanImage(creds: CredentialTable, logs: AccessLogTable, accessType: string, decoded: seq<string>, now: int)
    returns (r: Result<AccessLog, QrError>)
    requires creds.Valid() && logs.Valid()
    modifies logs
    ensures logs.Valid()
    ensures OwnersKnown(creds.rows)
    ensures accessType != ENTRY && accessType != EXIT ==>
      r == Err(InvalidAccessType) && logs.rows == old(logs.rows) && logs.nextId == old(logs.nextId)
    ensures (accessType == ENTRY || accessType == EXIT) && decoded == [] ==>
      r == Err(NoQrCodeFound) && logs.rows == old(logs.rows) && logs.nextId == old(logs.nextId)
    ensures (accessType == ENTRY || accessType == EXIT) && decoded != [] ==>
      ScanOutcome(creds.rows, decoded[0], accessType, now,
                  old(logs.rows), old(logs.nextId), logs.rows, logs.nextId, r)
  {
    if accessType != ENTRY && accessType != EXIT {
      return Err(InvalidAccessType);
    }
    if decoded == [] {
      return Err(NoQrCodeFound);
    }
    r := Scan(creds, logs, decoded[0], accessType, now);
  }

  /** A scan of a code no credential carries always fails with "Invalid QR code". */
  lemma UnknownCodeRejected(rows: seq<Credential>, code: string, now: int)
    requires forall c :: c in rows ==> c.code != code
    ensures Check(FindByCode(rows, code), InvalidQrCode, now) == Err(InvalidQrCode)
  {
  }
}

=== FILE: reports.dfy ===
/**
  The weekly access report: the logs of the last seven days, counters by
  access type and by person type, per-day buckets built in a loop, the raw
  rows, and the row rules of the HTML rendering of a report.
*/
module Reports {
  import opened Common
  import opened Models

  /** A log belongs to the report iff `now - 7 days <= access_time <= now`. */
  predicate InWindow(l: AccessLog, now: int)
  {
    now - WEEK <= l.accessTime <= now
  }

  /** The logs the report query returns, in table order. */
  function WeekLogs(logs: seq<AccessLog>, now: int): (r: seq<AccessLog>)
    ensures |r| <= |logs|
    ensures forall l :: l in r <==> l in logs && InWindow(l, now)
  {
    Filter(logs, (l: AccessLog) => InWindow(l, now))
  }

  // ---------------------------------------------------------------------
  // Counters: `sum(1 for log in access_logs if ...)`

  /** Logs whose access type is exactly `accessType`. */
  function CountAccess(logs: seq<AccessLog>, accessType: string): (n: nat)
    ensures n <= |logs|
  {
    if logs == [] then 0
    else CountAccess(logs[..|logs| - 1], accessType) + (if logs[|logs| - 1].accessType == accessType then 1 else 0)
  }

  /** Logs whose access type is exactly `accessType` and whose person type is exactly `personType`. */
  function CountAccessBy(logs: seq<AccessLog>, accessType: string, personType: string): (n: nat)
    ensures n <= CountAccess(logs, accessType)
  {
    if logs == [] then 0
    else
      var last := logs[|logs| - 1];
      CountAccessBy(logs[..|logs| - 1], accessType, personType)
      + (if last.accessType == accessType && last.personType == personType then 1 else 0)
  }

  predicate ValidAccessTypes(logs: seq<AccessLog>)
  {
    forall i :: 0 <= i < |logs| ==> logs[i].accessType == ENTRY || logs[i].accessType == EXIT
  }

  predicate ValidPersonTypes(logs: seq<AccessLog>)
  {
    forall i :: 0 <= i < |logs| ==> logs[i].personType == EMPLOYEE || logs[i].personType == VISITOR
  }

  /** Entries and exits never exceed the total, and add up to it when every access type is valid. */
  lemma {:induction false} EntriesAndExits(logs: seq<AccessLog>)
    ensures CountAccess(logs, ENTRY) + CountAccess(logs, EXIT) <= |logs|
    ensures ValidAccessTypes(logs) ==> CountAccess(logs, ENTRY) + CountAccess(logs, EXIT) == |logs|
  {
    if logs != [] {
      var init := logs[..|logs| - 1];
      EntriesAndExits(init);
      assert ValidAccessTypes(logs) ==> ValidAccessTypes(init);
    }
  }

  /** Employee and visitor counts of one access type never exceed it, and add up to it when every person type is valid. */
  lemma {:induction false} ByPersonType(logs: seq<AccessLog>, accessType: string)
    ensures CountAccessBy(logs, accessType, EMPLOYEE) + CountAccessBy(logs, accessType, VISITOR) <= CountAccess(logs, accessType)
    ensures ValidPersonTypes(logs) ==>
      CountAccessBy(logs, accessType, EMPLOYEE) + CountAccessBy(logs, accessType, VISITOR) == CountAccess(logs, accessType)
  {
    if logs != [] {
      var init := logs[..|logs| - 1];
      ByPersonType(init, accessType);
      assert ValidPersonTypes(logs) ==> ValidPersonTypes(init);
    }
  }

  // ---------------------------------------------------------------------
  // Per-day buckets: an insertion-ordered dictionary from date to counters.

  datatype DayStats = DayStats(day: int, entries: nat, exits: nat)

  /** Position of the bucket of `day`, if there is one. */
  function DayIndex(daily: seq<DayStats>, day: int): (r: Option<nat>)
    ensures r.Some? ==> r.value < |daily| && daily[r.value].day == day
    ensures r.None? <==> forall k :: 0 <= k < |daily| ==> daily[k].day != day
  {
    First(daily, (b: DayStats) => b.day == day)
  }

  /** One log counted in its bucket: "entry" is an entry, anything else an exit. */
  function Bump(b: DayStats, l: AccessLog): (n: DayStats)
    ensures n.day == b.day
    ensures n.entries + n.exits == b.entries + b.exits + 1
    ensures n.entries == b.entries + (if l.accessType == ENTRY then 1 else 0)
  {
    if l.accessType == ENTRY then b.(entries := b.entries + 1) else b.(exits := b.exits + 1)
  }

  /** One iteration of the per-day loop: open the bucket of the log's date if needed, then count the log. */
  function Tally(daily: seq<DayStats>, l: AccessLog): seq<DayStats>
  {
    var d := DateOf(l.accessTime);
    match DayIndex(daily, d)
    case None => daily + [Bump(DayStats(d, 0, 0), l)]
    case Some(k) => daily[k := Bump(daily[k], l)]
  }

  /** The buckets after the loop has run over `logs`. */
  function DailyStats(logs: seq<AccessLog>): seq<DayStats>
  {
    if logs == [] then [] else Tally(DailyStats(logs[..|logs| - 1]), logs[|logs| - 1])
  }

  /** The loop of `get_weekly_access_report` that fills `daily_stats`. */
  method BuildDailyStats(logs: seq<AccessLog>) returns (daily: seq<DayStats>)
    ensures daily == DailyStats(logs)
  {
    daily := [];
    for i := 0 to |logs|
      invariant daily == DailyStats(logs[..i])
    {
      var l := logs[i];
      assert logs[..i + 1][..i] == logs[..i];
      var d := DateOf(l.accessTime);
      var k := DayIndex(daily, d);
      if k.None? {
        daily := daily + [DayStats(d, 0, 0)];
        k := Some(|daily| - 1);
      }
      daily := daily[k.value := Bump(daily[k.value], l)];
    }
    assert logs[..|logs|] == logs;
  }

  function Days(daily: seq<DayStats>): set<int>
  {
    set k | 0 <= k < |daily| :: daily[k].day
  }

  function LogDates(logs: seq<AccessLog>): set<int>
  {
    set i | 0 <= i < |logs| :: DateOf(logs[i].accessTime)
  }

  ghost predicate DaysDistinct(daily: seq<DayStats>)
  {
    forall i, j :: 0 <= i < j < |daily| ==> daily[i].day != daily[j].day
  }

  ghost predicate BucketsNonEmpty(daily: seq<DayStats>)
  {
    forall k :: 0 <= k < |daily| ==> daily[k].entries + daily[k].exits >= 1
  }

  function SumEntries(daily: seq<DayStats>): nat
  {
    if daily == [] then 0 else SumEntries(daily[..|daily| - 1]) + daily[|daily| - 1].entries
  }

  function SumExits(daily: seq<DayStats>): nat
  {
    if daily == [] then 0 else SumExits(daily[..|daily| - 1]) + daily[|daily| - 1].exits
  }

  lemma {:induction false} SumsUpdate(daily: seq<DayStats>, k: nat, b: DayStats)
    requires k < |daily|
    ensures SumEntries(daily[k := b]) == SumEntries(daily) - daily[k].entries + b.entries
    ensures SumExits(daily[k := b]) == SumExits(daily) - daily[k].exits + b.exits
  {
    var n := |daily|;
    if k == n - 1 {
      assert daily[k := b][..n - 1] == daily[..n - 1];
    } else {
      SumsUpdate(daily[..n - 1], k, b);
      assert daily[k := b][..n - 1] == daily[..n - 1][k := b];
    }
  }

  lemma SumsAppend(daily: seq<DayStats>, b: DayStats)
    ensures SumEntries(daily + [b]) == SumEntries(daily) + b.entries
    ensures SumExits(daily + [b]) == SumExits(daily) + b.exits
  {
    assert (daily + [b])[..|daily|] == daily;
  }

  /** A log whose date has no bucket yet opens one at the end. */
  lemma OpenBucket(daily: seq<DayStats>, l: AccessLog)
    requires DaysDistinct(daily) && BucketsNonEmpty(daily)
    requires DayIndex(daily, DateOf(l.accessTime)).None?
    ensures var t := daily + [Bump(DayStats(DateOf(l.accessTime), 0, 0), l)];
      && DaysDistinct(t) && BucketsNonEmpty(t)
      && Days(t) == Days(daily) + {DateOf(l.accessTime)}
      && SumEntries(t) == SumEntries(daily) + (if l.accessType == ENTRY then 1 else 0)
      && SumEntries(t) + SumExits(t) == SumEntries(daily) + SumExits(daily) + 1
  {
    var d := DateOf(l.accessTime);
    var t := daily + [Bump(DayStats(d, 0, 0), l)];
    SumsAppend(daily, Bump(DayStats(d, 0, 0), l));
    assert t[|daily|].day == d;
    assert Days(t) == Days(daily) + {d} by {
      forall x | x in Days(t) ensures x in Days(daily) + {d} {
        var k :| 0 <= k < |t| && t[k].day == x;
        if k < |daily| {
          assert daily[k].day == x;
        }
      }
      forall x | x in Days(daily) ensures x in Days(t) {
        var k :| 0 <= k < |daily| && daily[k].day == x;
        assert t[k].day == x;
      }
    }
  }

  /** A log whose date has a bucket is counted in it. */
  lemma CountInBucket(daily: seq<DayStats>, l: AccessLog, k: nat)
    requires DaysDistinct(daily) && BucketsNonEmpty(daily)
    requires k < |daily| && daily[k].day == DateOf(l.accessTime)
    ensures var t := daily[k := Bump(daily[k], l)];
      && DaysDistinct(t) && BucketsNonEmpty(t)
      && Days(t) == Days(daily) + {DateOf(l.accessTime)}
      && SumEntries(t) == SumEntries(daily) + (if l.accessType == ENTRY then 1 else 0)
      && SumEntries(t) + SumExits(t) == SumEntries(daily) + SumExits(daily) + 1
  {
    var t := daily[k := Bump(daily[k], l)];
    SumsUpdate(daily, k, Bump(daily[k], l));
    assert Days(t) == Days(daily) by {
      forall x | x in Days(daily) ensures x in Days(t) {
        var j :| 0 <= j < |daily| && daily[j].day == x;
        assert t[j].day == x;
      }
      forall x | x in Days(t) ensures x in Days(daily) {
        var j :| 0 <= j < |t| && t[j].day == x;
        assert daily[j].day == x;
      }
    }
  }

  /** What one iteration does to the buckets: the invariants survive and the sums grow by the log. */
  lemma TallyStep(daily: seq<DayStats>, l: AccessLog)
    requires DaysDistinct(daily) && BucketsNonEmpty(daily)
    ensures DaysDistinct(Tally(daily, l)) && BucketsNonEmpty(Tally(daily, l))
    ensures Days(Tally(daily, l)) == Days(daily) + {DateOf(l.accessTime)}
    ensures SumEntries(Tally(daily, l)) == SumEntries(daily) + (if l.accessType == ENTRY then 1 else 0)
    ensures SumEntries(Tally(daily, l)) + SumExits(Tally(daily, l)) == SumEntries(daily) + SumExits(daily) + 1
  {
    match DayIndex(daily, DateOf(l.accessTime))
    case None => OpenBucket(daily, l);
    case Some(k) => CountInBucket(daily, l, k);
  }

  /** The dates of the logs are those of all but the last, plus the last one's. */
  lemma LogDatesSnoc(logs: seq<AccessLog>)
    requires logs != []
    ensures LogDates(logs) == LogDates(logs[..|logs| - 1]) + {DateOf(logs[|logs| - 1].accessTime)}
  {
    var init := logs[..|logs| - 1];
    forall x | x in LogDates(logs) ensures x in LogDates(init) + {DateOf(logs[|logs| - 1].accessTime)} {
      var i :| 0 <= i < |logs| && DateOf(logs[i].accessTime) == x;
      if i < |init| {
        assert DateOf(init[i].accessTime) == x;
      }
    }
    forall x | x in LogDates(init) ensures x in LogDates(logs) {
      var i :| 0 <= i < |init| && DateOf(init[i].accessTime) == x;
      assert DateOf(logs[i].accessTime) == x;
    }
  }

  /**
    The buckets after the loop: one per date, exactly the dates of the logs,
    none empty; their entries add up to the "entry" logs and their entries
    plus exits to all logs.
  */
  lemma {:induction false} DailyStatsFacts(logs: seq<AccessLog>)
    ensures DaysDistinct(DailyStats(logs)) && BucketsNonEmpty(DailyStats(logs))
    ensures Days(DailyStats(logs)) == LogDates(logs)
    ensures SumEntries(DailyStats(logs)) == CountAccess(logs, ENTRY)
    ensures SumEntries(DailyStats(logs)) + SumExits(DailyStats(logs)) == |logs|
  {
    if logs != [] {
      var init := logs[..|logs| - 1];
      var l := logs[|logs| - 1];
      DailyStatsFacts(init);
      TallyStep(DailyStats(init), l);
      LogDatesSnoc(logs);
    }
  }

  /**
    The buckets count every log that is not "entry" as an exit, while the
    totals count only "exit": the two exit counts agree exactly when every
    access type is valid, and otherwise the buckets count more.
  */
  lemma DailyExitsAgainstTotals(logs: seq<AccessLog>)
    ensures SumExits(DailyStats(logs)) >= CountAccess(logs, EXIT)
    ensures ValidAccessTypes(logs) ==> SumExits(DailyStats(logs)) == CountAccess(logs, EXIT)
    ensures !ValidAccessTypes(logs) ==> SumExits(DailyStats(logs)) > CountAccess(logs, EXIT)
  {
    DailyStatsFacts(logs);
    EntriesAndExits(logs);
    if !ValidAccessTypes(logs) {
      InvalidAccessTypeUncounted(logs);
    }
  }

  lemma {:induction false} InvalidAccessTypeUncounted(logs: seq<AccessLog>)
    requires !ValidAccessTypes(logs)
    ensures CountAccess(logs, ENTRY) + CountAccess(logs, EXIT) < |logs|
  {
    var init := logs[..|logs| - 1];
    EntriesAndExits(init);
    if ValidAccessTypes(init) {
      assert !(logs[|logs| - 1].accessType == ENTRY || logs[|logs| - 1].accessType == EXIT);
    } else {
      InvalidAccessTypeUncounted(init);
    }
  }

  // ---------------------------------------------------------------------
  // The report

  datatype Counts = Counts(entries: nat, exits: nat, total: nat)

  /** A report row of one log; times stay numbers (their text formatting is not modelled). */
  datatype RawRow = RawRow(id: int, personType: string, personId: int, accessType: string, accessTime: int, workdayDate: int)

  datatype WeeklyReport = WeeklyReport(
    periodStart: int,
    periodEnd: int,
    totals: Counts,
    employees: Counts,
    visitors: Counts,
    daily: seq<DayStats>,
    raw: seq<RawRow>)

  function RawRows(logs: seq<AccessLog>): (rows: seq<RawRow>)
    ensures |rows| == |logs|
    ensures forall i :: 0 <= i < |logs| ==>
      rows[i] == RawRow(logs[i].id, logs[i].personType, logs[i].personId, logs[i].accessType, logs[i].accessTime, logs[i].workdayDate)
  {
    seq(|logs|, i requires 0 <= i < |logs| =>
      RawRow(logs[i].id, logs[i].personType, logs[i].personId, logs[i].accessType, logs[i].accessTime, logs[i].workdayDate))
  }

  function TypeCounts(logs: seq<AccessLog>, personType: string): (c: Counts)
    ensures c.total == c.entries + c.exits
  {
    var e := CountAccessBy(logs, ENTRY, personType);
    var x := CountAccessBy(logs, EXIT, personType);
    Counts(e, x, e + x)
  }

  /** `get_weekly_access_report` with `now` for the clock. */
  function WeeklyReportOf(logs: seq<AccessLog>, now: int): WeeklyReport
  {
    var week := WeekLogs(logs, now);
    WeeklyReport(
      DateOf(now - WEEK),
      DateOf(now),
      Counts(CountAccess(week, ENTRY), CountAccess(week, EXIT), |week|),
      TypeCounts(week, EMPLOYEE),
      TypeCounts(week, VISITOR),
      DailyStats(week),
      RawRows(week))
  }

  /** The report service: the query, the counters, then the per-day loop. */
  method GetWeeklyAccessReport(table: AccessLogTable, now: int) returns (r: WeeklyReport)
    ensures r == WeeklyReportOf(table.rows, now)
  {
    var week := WeekLogs(table.rows, now);
    var daily := BuildDailyStats(week);
    r := WeeklyReport(
      DateOf(now - WEEK),
      DateOf(now),
      Counts(CountAccess(week, ENTRY), CountAccess(week, EXIT), |week|),
      TypeCounts(week, EMPLOYEE),
      TypeCounts(week, VISITOR),
      daily,
      RawRows(week));
  }

  /** The counters of a report: total is the number of logs of the week; entries and exits fit in it. */
  lemma ReportTotals(logs: seq<AccessLog>, now: int)
    ensures var r := WeeklyReportOf(logs, now);
      && r.totals.total == |WeekLogs(logs, now)|
      && r.totals.entries + r.totals.exits <= r.totals.total
      && (ValidAccessTypes(WeekLogs(logs, now)) ==> r.totals.entries + r.totals.exits == r.totals.total)
      && r.employees.entries + r.visitors.entries <= r.totals.entries
      && r.employees.exits + r.visitors.exits <= r.totals.exits
      && (ValidPersonTypes(WeekLogs(logs, now)) ==>
            r.employees.entries + r.visitors.entries == r.totals.entries
            && r.employees.exits + r.visitors.exits == r.totals.exits)
  {
    var week := WeekLogs(logs, now);
    EntriesAndExits(week);
    ByPersonType(week, ENTRY);
    ByPersonType(week, EXIT);
  }

  /**
    The buckets of a report: one per date of the week's logs, none empty,
    entries adding up to the total entries and entries plus exits to the total.
  */
  lemma ReportDaily(logs: seq<AccessLog>, now: int)
    ensures var r := WeeklyReportOf(logs, now);
      && DaysDistinct(r.daily)
      && BucketsNonEmpty(r.daily)
      && Days(r.daily) == LogDates(WeekLogs(logs, now))
      && SumEntries(r.daily) == r.totals.entries
      && SumEntries(r.daily) + SumExits(r.daily) == r.totals.total
  {
    DailyStatsFacts(WeekLogs(logs, now));
  }

  /** Every log of the window has a bucket for its date, and every bucket's date is the date of such a log. */
  lemma ReportDaysAreLogDates(logs: seq<AccessLog>, now: int, d: int)
    ensures d in Days(WeeklyReportOf(logs, now).daily) <==>
      exists l :: l in logs && InWindow(l, now) && DateOf(l.accessTime) == d
  {
    var week := WeekLogs(logs, now);
    DailyStatsFacts(week);
    if d in LogDates(week) {
      var i :| 0 <= i < |week| && DateOf(week[i].accessTime) == d;
      assert week[i] in week;
    }
    if exists l :: l in logs && InWindow(l, now) && DateOf(l.accessTime) == d {
      var l :| l in logs && InWindow(l, now) && DateOf(l.accessTime) == d;
      assert l in week;
      var i :| 0 <= i < |week| && week[i] == l;
      assert DateOf(week[i].accessTime) == d;
    }
  }

  // ---------------------------------------------------------------------
  // HTML rows of `generate_html_report`

  datatype DailyRow = DailyRow(day: int, entries: nat, exits: nat, total: nat)

  /** The row of one bucket: its date, its counters and their sum. */
  function DailyRowOf(b: DayStats): (row: DailyRow)
    ensures row.day == b.day && row.entries == b.entries && row.exits == b.exits
    ensures row.total == row.entries + row.exits
  {
    DailyRow(b.day, b.entries, b.exits, b.entries + b.exits)
  }

  function SumTotals(rows: seq<DailyRow>): nat
  {
    if rows == [] then 0 else SumTotals(rows[..|rows| - 1]) + rows[|rows| - 1].total
  }

  /** The totals column of the daily rows adds up to all entries and exits of the buckets. */
  lemma {:induction false} SumTotalsOfBuckets(daily: seq<DayStats>, rows: seq<DailyRow>)
    requires |rows| == |daily|
    requires forall k :: 0 <= k < |daily| ==> rows[k] == DailyRowOf(daily[k])
    ensures SumTotals(rows) == SumEntries(daily) + SumExits(daily)
  {
    if daily != [] {
      SumTotalsOfBuckets(daily[..|daily| - 1], rows[..|rows| - 1]);
    }
  }

  datatype DetailRow = DetailRow(id: int, personLabel: string, personId: int, accessLabel: string, accessTime: int)

  /** The detail table lists at most this many logs. */
  const DETAIL_LIMIT: nat := 50

  function PersonLabel(personType: string): (s: string)
    ensures s == "Empleado" <==> personType == EMPLOYEE
    ensures s == "Visitante" <==> personType != EMPLOYEE
  {
    if personType == EMPLOYEE then "Empleado" else "Visitante"
  }

  function AccessLabel(accessType: string): (s: string)
    ensures s == "Entrada" <==> accessType == ENTRY
    ensures s == "Salida" <==> accessType != ENTRY
  {
    if accessType == ENTRY then "Entrada" else "Salida"
  }

  /**
    The two row loops of the HTML report: one daily row per bucket, in
    bucket order, with its total; one detail row for each of the first 50
    raw rows.
  */
  method HtmlRows(r: WeeklyReport) returns (dailyRows: seq<DailyRow>, detailRows: seq<DetailRow>)
    ensures |dailyRows| == |r.daily|
    ensures forall k :: 0 <= k < |r.daily| ==> dailyRows[k] == DailyRowOf(r.daily[k])
    ensures |detailRows| == Min(DETAIL_LIMIT, |r.raw|)
    ensures forall k :: 0 <= k < |detailRows| ==>
      detailRows[k] == DetailRow(r.raw[k].id, PersonLabel(r.raw[k].personType), r.raw[k].personId,
                                 AccessLabel(r.raw[k].accessType), r.raw[k].accessTime)
  {
    dailyRows := [];
    for k := 0 to |r.daily|
      invariant |dailyRows| == k
      invariant forall j :: 0 <= j < k ==> dailyRows[j] == DailyRowOf(r.daily[j])
    {
      dailyRows := dailyRows + [DailyRowOf(r.daily[k])];
    }
    var shown := if |r.raw| <= DETAIL_LIMIT then r.raw else r.raw[..DETAIL_LIMIT];
    detailRows := [];
    for k := 0 to |shown|
      invariant |detailRows| == k
      invariant forall j :: 0 <= j < k ==>
        detailRows[j] == DetailRow(r.raw[j].id, PersonLabel(r.raw[j].personType), r.raw[j].personId,
                                   AccessLabel(r.raw[j].accessType), r.raw[j].accessTime)
    {
      var row := shown[k];
      detailRows := detailRows + [DetailRow(row.id, PersonLabel(row.personType), row.personId, AccessLabel(row.accessType), row.accessTime)];
    }
  }

  /**
    For the daily rows of a report, the totals column adds up to the number
    of logs of the week, and no row has a zero total.
  */
  lemma HtmlDailyTotals(logs: seq<AccessLog>, now: int, rows: seq<DailyRow>)
    requires |rows| == |WeeklyReportOf(logs, now).daily|
    requires forall k :: 0 <= k < |rows| ==> rows[k] == DailyRowOf(WeeklyReportOf(logs, now).daily[k])
    ensures SumTotals(rows) == WeeklyReportOf(logs, now).totals.total
    ensures forall k :: 0 <= k < |rows| ==> rows[k].total >= 1
  {
    var r := WeeklyReportOf(logs, now);
    ReportDaily(logs, now);
    SumTotalsOfBuckets(r.daily, rows);
  }
}

=== FILE: schemas.dfy ===
/**
  Request payloads and their field validators. A validator accepts a value
  by returning it unchanged and rejects it with a validation error (HTTP 422
  before any router code runs). The framework runs a validator only on a
  field the request supplies; an optional field left out is `None` here and
  is not validated.
*/
module Schemas {
  import opened Common

  datatype ValidationError =
    | PersonTypeInvalid
    | AccessTypeInvalid
    | IncidentTypeInvalid
    | AdminPasswordMissing

  predicate IsPersonType(v: string)
  {
    v == EMPLOYEE || v == VISITOR
  }

  predicate IsAccessType(v: string)
  {
    v == ENTRY || v == EXIT
  }

  predicate IsIncidentType(v: string)
  {
    v == "denied_access" || v == "invalid_qr" || v == "security_alert"
  }

  // ---------------------------------------------------------------------
  // Access logs

  datatype AccessLogCreate = AccessLogCreate(personType: string, personId: int, accessType: string, workdayDate: int)

  /** Only the access type and the workday can be sent in an update. */
  datatype AccessLogUpdate = AccessLogUpdate(accessType: Option<string>, workdayDate: Option<int>)

  /** `validate_person_type`, shared by access logs and incidents. */
  function ValidatePersonType(v: string): (r: Result<string, ValidationError>)
    ensures r.Ok? <==> v in {EMPLOYEE, VISITOR}
    ensures r.Ok? ==> r.value == v
    ensures r.Err? ==> r.error == PersonTypeInvalid
  {
    if IsPersonType(v) then Ok(v) else Err(PersonTypeInvalid)
  }

  function ValidateAccessType(v: string): (r: Result<string, ValidationError>)
    ensures r.Ok? <==> v in {ENTRY, EXIT}
    ensures r.Ok? ==> r.value == v
    ensures r.Err? ==> r.error == AccessTypeInvalid
  {
    if IsAccessType(v) then Ok(v) else Err(AccessTypeInvalid)
  }

  /** `AccessLogUpdate.validate_access_type`: None passes, anything else follows the entry/exit rule. */
  function ValidateOptionalAccessType(v: Option<string>): (r: Result<Option<string>, ValidationError>)
    ensures v.None? ==> r == Ok(None)
    ensures v.Some? ==> (r.Ok? <==> ValidateAccessType(v.value).Ok?)
    ensures r.Ok? ==> r.value == v
  {
    if v.Some? && !IsAccessType(v.value) then Err(AccessTypeInvalid) else Ok(v)
  }

  /** The field errors of an access-log create payload, in field order; empty when it is accepted. */
  function AccessLogCreateErrors(p: AccessLogCreate): (errs: seq<ValidationError>)
    ensures errs == [] <==> ValidatePersonType(p.personType).Ok? && ValidateAccessType(p.accessType).Ok?
    ensures |errs| <= 2
  {
    (if IsPersonType(p.personType) then [] else [PersonTypeInvalid])
    + (if IsAccessType(p.accessType) then [] else [AccessTypeInvalid])
  }

  function AccessLogUpdateErrors(p: AccessLogUpdate): (errs: seq<ValidationError>)
    ensures errs == [] <==> ValidateOptionalAccessType(p.accessType).Ok?
  {
    if ValidateOptionalAccessType(p.accessType).Ok? then [] else [AccessTypeInvalid]
  }

  // ---------------------------------------------------------------------
  // Incidents

  datatype IncidentCreate = IncidentCreate(personType: string, personId: Option<int>, incidentType: string, description: string)

  datatype IncidentUpdate = IncidentUpdate(
    personType: Option<string>,
    personId: Option<int>,
    incidentType: Option<string>,
    description: Option<string>)

  function ValidateIncidentType(v: string): (r: Result<string, ValidationError>)
    ensures r.Ok? <==> v in {"denied_access", "invalid_qr", "security_alert"}
    ensures r.Ok? ==> r.value == v
    ensures r.Err? ==> r.error == IncidentTypeInvalid
  {
    if IsIncidentType(v) then Ok(v) else Err(IncidentTypeInvalid)
  }

  function ValidateOptionalPersonType(v: Option<string>): (r: Result<Option<string>, ValidationError>)
    ensures v.None? ==> r == Ok(None)
    ensures v.Some? ==> (r.Ok? <==> ValidatePersonType(v.value).Ok?)
    ensures r.Ok? ==> r.value == v
  {
    if v.Some? && !IsPersonType(v.value) then Err(PersonTypeInvalid) else Ok(v)
  }

  function ValidateOptionalIncidentType(v: Option<string>): (r: Result<Option<string>, ValidationError>)
    ensures v.None? ==> r == Ok(None)
    ensures v.Some? ==> (r.Ok? <==> ValidateIncidentType(v.value).Ok?)
    ensures r.Ok? ==> r.value == v
  {
    if v.Some? && !IsIncidentType(v.value) then Err(IncidentTypeInvalid) else Ok(v)
  }

  function IncidentCreateErrors(p: IncidentCreate): (errs: seq<ValidationError>)
    ensures errs == [] <==> ValidatePersonType(p.personType).Ok? && ValidateIncidentType(p.incidentType).Ok?
  {
    (if IsPersonType(p.personType) then [] else [PersonTypeInvalid])
    + (if IsIncidentType(p.incidentType) then [] else [IncidentTypeInvalid])
  }

  function IncidentUpdateErrors(p: IncidentUpdate): (errs: seq<ValidationError>)
    ensures errs == [] <==> ValidateOptionalPersonType(p.personType).Ok? && ValidateOptionalIncidentType(p.incidentType).Ok?
  {
    (if ValidateOptionalPersonType(p.personType).Ok? then [] else [PersonTypeInvalid])
    + (if ValidateOptionalIncidentType(p.incidentType).Ok? then [] else [IncidentTypeInvalid])
  }

  // ---------------------------------------------------------------------
  // Users

  /** A field of a request body: left out, sent as JSON `null`, or sent with a value. */
  datatype Sent<T> = Omitted | Null | Given(value: T)

  /** The attribute value of a field: `None` when it was left out or sent as `null`. */
  function ValueOf<T>(f: Sent<T>): (o: Option<T>)
  {
    if f.Given? then Some(f.value) else None
  }

  datatype UserCreate = UserCreate(
    firstName: string,
    lastName: string,
    documentNumber: string,
    email: string,
    userType: string,
    password: Sent<string>,
    imageHash: string)

  datatype UserUpdate = UserUpdate(
    firstName: Option<string>,
    lastName: Option<string>,
    email: Option<string>,
    userType: Option<string>,
    password: Option<string>,
    imageHash: Option<string>)

  /**
    `validate_admin_password` / `validate_admin_update_password`: `userType` is
    the `user_type` entry of the already-validated values (None when absent).
    The password is rejected only when that entry is "admin" and the password
    is None or empty; otherwise it is returned unchanged.
  */
  function ValidateAdminPassword(v: Option<string>, userType: Option<string>): (r: Result<Option<string>, ValidationError>)
    ensures r.Err? <==> userType == Some(ADMIN) && (v.None? || v.value == "")
    ensures r.Err? ==> r.error == AdminPasswordMissing
    ensures r.Ok? ==> r.value == v
  {
    if userType.Some? && userType.value == ADMIN && (v.None? || |v.value| == 0) then Err(AdminPasswordMissing)
    else Ok(v)
  }

  /**
    On create the validator runs whenever the body carries a password, an
    explicit `null` included, and is skipped only when the password is left
    out; `user_type` is always among the values.
  */
  function UserCreateErrors(p: UserCreate): (errs: seq<ValidationError>)
    ensures errs == [] <==> p.password.Omitted? || p.userType != ADMIN || (p.password.Given? && p.password.value != "")
    ensures errs != [] ==> errs == [AdminPasswordMissing]
  {
    if !p.password.Omitted? && ValidateAdminPassword(ValueOf(p.password), Some(p.userType)).Err? then [AdminPasswordMissing]
    else []
  }

  /** On update the rule applies only when the same update sets `user_type` to "admin". */
  function UserUpdateErrors(p: UserUpdate): (errs: seq<ValidationError>)
    ensures errs == [] <==> p.password.None? || p.userType != Some(ADMIN) || p.password.value != ""
  {
    if p.password.Some? && ValidateAdminPassword(p.password, p.userType).Err? then [AdminPasswordMissing]
    else []
  }
}

=== FILE: text.dfy ===
/**
  String helpers the routers rely on: ASCII digits and decimal rendering of
  integers (`str(n)`, `int(s)`), ASCII lower-casing (`str.lower()`),
  substring search (`t in s`) and the shared rule that strips a leading
  "NNN: " status prefix from an error text.
*/
module Text {
  import opened Common

  predicate IsDigit(c: char)
  {
    '0' <= c <= '9'
  }

  /** `str.isdigit()` on ASCII text: non-empty, and every character a digit. */
  predicate IsDigits(s: string)
  {
    |s| > 0 && forall i :: 0 <= i < |s| ==> IsDigit(s[i])
  }

  function DigitChar(d: nat): (c: char)
    requires d < 10
    ensures IsDigit(c)
  {
    ('0' as int + d) as char
  }

  function DigitValue(c: char): (d: nat)
    requires IsDigit(c)
    ensures d < 10 && DigitChar(d) == c
  {
    c as int - '0' as int
  }

  /** `str(n)` for a non-negative integer. */
  function DecimalText(n: nat): (s: string)
    ensures IsDigits(s)
    ensures n < 10 <==> |s| == 1
  {
    if n < 10 then [DigitChar(n)] else DecimalText(n / 10) + [DigitChar(n % 10)]
  }

  /** The value of a string of decimal digits. */
  function DigitsValue(s: string): nat
    requires forall i :: 0 <= i < |s| ==> IsDigit(s[i])
  {
    if s == [] then 0 else 10 * DigitsValue(s[..|s| - 1]) + DigitValue(s[|s| - 1])
  }

  /** `int(s)`: an optional sign followed by one or more ASCII digits; None where Python raises ValueError. */
  function ParseInt(s: string): (r: Option<int>)
    ensures r.Some? <==> IsDigits(s) || (|s| > 0 && (s[0] == '-' || s[0] == '+') && IsDigits(s[1..]))
    ensures IsDigits(s) ==> r == Some(DigitsValue(s))
    ensures |s| > 0 && s[0] == '+' && IsDigits(s[1..]) ==> r == Some(DigitsValue(s[1..]))
    ensures |s| > 0 && s[0] == '-' && IsDigits(s[1..]) ==> r.Some? && r.value == -(DigitsValue(s[1..]) as int)
  {
    if |s| > 0 && (s[0] == '-' || s[0] == '+') then
      if IsDigits(s[1..]) then
        var magnitude: int := DigitsValue(s[1..]);
        Some(if s[0] == '-' then -magnitude else magnitude)
      else None
    else if IsDigits(s) then Some(DigitsValue(s))
    else None
  }

  lemma {:induction false} DigitsValueOfDecimalText(n: nat)
    ensures DigitsValue(DecimalText(n)) == n
  {
    var s := DecimalText(n);
    if n < 10 {
      assert s[..0] == [];
    } else {
      DigitsValueOfDecimalText(n / 10);
      assert s[..|s| - 1] == DecimalText(n / 10);
    }
  }

  /** `int(str(n)) == n`: the text of an id parses back to that id. */
  lemma ParseDecimalText(n: nat)
    ensures ParseInt(DecimalText(n)) == Some(n)
  {
    DigitsValueOfDecimalText(n);
  }

  function LowerChar(c: char): char
  {
    if 'A' <= c <= 'Z' then (c as int + 32) as char else c
  }

  /** `str.lower()`, restricted to the ASCII letters. */
  function Lower(s: string): (r: string)
    ensures |r| == |s|
    ensures forall i :: 0 <= i < |s| ==> r[i] == LowerChar(s[i])
    ensures forall i :: 0 <= i < |r| ==> !('A' <= r[i] <= 'Z')
  {
    seq(|s|, i requires 0 <= i < |s| => LowerChar(s[i]))
  }

  lemma LowerIdempotent(s: string)
    ensures Lower(Lower(s)) == Lower(s)
  {
  }

  predicate OccursAt(s: string, t: string, i: int)
  {
    0 <= i && i + |t| <= |s| && s[i..i + |t|] == t
  }

  /** Python's `t in s` on strings. */
  predicate Contains(s: string, t: string)
  {
    exists i :: 0 <= i <= |s| - |t| && OccursAt(s, t, i)
  }

  /** A text cannot contain a word that has a character the text lacks. */
  lemma MissingCharNotContained(s: string, t: string, c: char)
    requires c in t && c !in s
    ensures !Contains(s, t)
  {
    var j :| 0 <= j < |t| && t[j] == c;
    forall i | 0 <= i && i + |t| <= |s|
      ensures !OccursAt(s, t, i)
    {
      assert s[i..i + |t|][j] == s[i + j];
    }
  }

  /** Lower-casing a text without `ch` or its upper-case form keeps `ch` out. */
  lemma LowerLacksChar(s: string, ch: char)
    requires 'a' <= ch <= 'z'
    requires ch !in s && (ch as int - 32) as char !in s
    ensures ch !in Lower(s)
  {
    forall i | 0 <= i < |s|
      ensures Lower(s)[i] != ch
    {
      assert s[i] != ch && s[i] != (ch as int - 32) as char;
    }
  }

  // ---------------------------------------------------------------------
  // `if ": " in msg and msg.split(": ")[0].isdigit(): msg = msg.split(": ", 1)[1]`

  predicate SeparatorAt(s: string, i: int)
  {
    0 <= i && i + 1 < |s| && s[i] == ':' && s[i + 1] == ' '
  }

  /** Position of the first ": " in `s`. */
  function FindSeparator(s: string): (r: Option<nat>)
    ensures r.Some? ==> SeparatorAt(s, r.value)
    ensures r.Some? ==> forall j :: 0 <= j < r.value ==> !SeparatorAt(s, j)
    ensures r.None? <==> forall j :: !SeparatorAt(s, j)
  {
    if |s| < 2 then None
    else if SeparatorAt(s, 0) then Some(0)
    else
      var rest := FindSeparator(s[1..]);
      assert forall j :: 1 <= j ==> (SeparatorAt(s, j) <==> SeparatorAt(s[1..], j - 1));
      match rest
      case None => None
      case Some(k) => assert SeparatorAt(s, k + 1); Some(k + 1)
  }

  /** The error text without a leading "NNN: " status prefix. */
  function StripStatusPrefix(msg: string): (r: string)
    ensures r == msg || exists i :: SeparatorAt(msg, i) && IsDigits(msg[..i]) && r == msg[i + 2..]
    ensures (forall i :: !SeparatorAt(msg, i)) ==> r == msg
    ensures forall i :: SeparatorAt(msg, i) && (forall j :: 0 <= j < i ==> !SeparatorAt(msg, j)) ==>
      r == (if IsDigits(msg[..i]) then msg[i + 2..] else msg)
  {
    match FindSeparator(msg)
    case None => msg
    case Some(i) => if IsDigits(msg[..i]) then msg[i + 2..] else msg
  }

  /** Stripping `str(HTTPException)`, which reads "<status>: <detail>", gives back the detail. */
  lemma StripRendered(status: nat, detail: string)
    ensures StripStatusPrefix(DecimalText(status) + ": " + detail) == detail
  {
    var d := DecimalText(status);
    var msg := d + ": " + detail;
    assert SeparatorAt(msg, |d|);
    forall j | 0 <= j < |d|
      ensures !SeparatorAt(msg, j)
    {
      assert msg[j] == d[j];
    }
    var i := FindSeparator(msg).value;
    assert i == |d|;
    assert msg[..i] == d;
    assert msg[i + 2..] == detail;
  }

  /** A text that does not start with a digit is never changed. */
  lemma StripKeepsUnnumbered(msg: string)
    requires msg == [] || !IsDigit(msg[0])
    ensures StripStatusPrefix(msg) == msg
  {
    match FindSeparator(msg)
    case None =>
    case Some(i) =>
      if i > 0 {
        assert msg[..i][0] == msg[0];
      }
  }
}

=== FILE: users.dfy ===
/**
  The user router: creation with the admin-password rule, duplicate checks
  and e-mail normalisation; lookup by id or document number; partial update
  with the admin rule against the stored password and the unique e-mail
  column; and the login decision chain.

  `create_user` wraps all of its work in a catch-all handler that also
  catches the HTTP errors it raises itself. The framework renders such an
  error as "<status>: <detail>", so the handler sees that text; the
  user-facing texts are therefore part of the model.
*/
module Users {
  import opened Common
  import opened Text
  import opened Models
  import Schemas

  // The texts of the three errors `create_user` raises itself, written in
  // pieces so that their characters can be reasoned about piece by piece.
  const ADMIN_PASSWORD_REQUIRED: string := "La contraseña " + "es obligatoria " + "para usuarios " + "administradores"
  const EMAIL_EXISTS: string := "Ya existe un " + "usuario con este " + "correo electrónico"
  const DOCUMENT_EXISTS: string := "Ya existe un " + "usuario con este " + "número de documento"

  datatype UserError =
    | AdminPasswordRequired
    | EmailExists
    | DocumentExists
    | UserNotFound
    | NotAdmin
    | InvalidCredentials
    | ServerError(detail: string)

  function Status(e: UserError): (s: nat)
    ensures s == 400 <==> e.AdminPasswordRequired? || e.EmailExists? || e.DocumentExists?
    ensures s == 404 <==> e.UserNotFound?
    ensures s == 403 <==> e.NotAdmin?
    ensures s == 401 <==> e.InvalidCredentials?
    ensures s == 500 <==> e.ServerError?
  {
    match e
    case AdminPasswordRequired => 400
    case EmailExists => 400
    case DocumentExists => 400
    case UserNotFound => 404
    case NotAdmin => 403
    case InvalidCredentials => 401
    case ServerError(_) => 500
  }

  /** The errors `create_user` raises before touching the table. */
  predicate IsCreateCheckError(e: UserError)
  {
    e.AdminPasswordRequired? || e.EmailExists? || e.DocumentExists?
  }

  function Message(e: UserError): (m: string)
    requires IsCreateCheckError(e)
    ensures m != []
  {
    match e
    case AdminPasswordRequired => ADMIN_PASSWORD_REQUIRED
    case EmailExists => EMAIL_EXISTS
    case DocumentExists => DOCUMENT_EXISTS
  }

  /** No underscore (so no constraint name) and no letter k (so no "check"). */
  predicate Unmarked(s: string)
  {
    '_' !in s && 'k' !in s && 'K' !in s
  }

  lemma UnmarkedConcat(a: string, b: string)
    requires Unmarked(a) && Unmarked(b)
    ensures Unmarked(a + b)
  {
  }

  // The pieces of the three texts, one lemma each: checking every character
  // of a piece is cheap on its own and expensive in a larger context.
  lemma PieceLaContrasena() ensures Unmarked("La contraseña ") {}
  lemma PieceEsObligatoria() ensures Unmarked("es obligatoria ") {}
  lemma PieceParaUsuarios() ensures Unmarked("para usuarios ") {}
  lemma PieceAdministradores() ensures Unmarked("administradores") {}
  lemma PieceYaExisteUn() ensures Unmarked("Ya existe un ") {}
  lemma PieceUsuarioConEste() ensures Unmarked("usuario con este ") {}
  lemma PieceCorreoElectronico() ensures Unmarked("correo electrónico") {}
  lemma PieceNumeroDeDocumento() ensures Unmarked("número de documento") {}

  lemma AdminPasswordRequiredUnmarked()
    ensures Unmarked(ADMIN_PASSWORD_REQUIRED)
  {
    PieceLaContrasena();
    PieceEsObligatoria();
    PieceParaUsuarios();
    PieceAdministradores();
    UnmarkedConcat("La contraseña ", "es obligatoria ");
    UnmarkedConcat("La contraseña " + "es obligatoria ", "para usuarios ");
    UnmarkedConcat("La contraseña " + "es obligatoria " + "para usuarios ", "administradores");
  }

  lemma EmailExistsUnmarked()
    ensures Unmarked(EMAIL_EXISTS)
  {
    PieceYaExisteUn();
    PieceUsuarioConEste();
    PieceCorreoElectronico();
    UnmarkedConcat("Ya existe un ", "usuario con este ");
    UnmarkedConcat("Ya existe un " + "usuario con este ", "correo electrónico");
  }

  lemma DocumentExistsUnmarked()
    ensures Unmarked(DOCUMENT_EXISTS)
  {
    PieceYaExisteUn();
    PieceUsuarioConEste();
    PieceNumeroDeDocumento();
    UnmarkedConcat("Ya existe un ", "usuario con este ");
    UnmarkedConcat("Ya existe un " + "usuario con este ", "número de documento");
  }

  /** None of the three texts contains an underscore or the letter k. */
  lemma MessageUnmarked(e: UserError)
    requires IsCreateCheckError(e)
    ensures Unmarked(Message(e))
  {
    match e
    case AdminPasswordRequired => AdminPasswordRequiredUnmarked();
    case EmailExists => EmailExistsUnmarked();
    case DocumentExists => DocumentExistsUnmarked();
  }

  /** `str(HTTPException)`: "<status>: <detail>". */
  function Rendered(e: UserError): string
    requires IsCreateCheckError(e)
  {
    DecimalText(Status(e)) + ": " + Message(e)
  }

  // ---------------------------------------------------------------------
  // POST /users/

  /** The handler of `create_user` for any exception, applied to the exception's text. */
  function CatchAll(text: string): (e: UserError)
    ensures Contains(text, "users_email_key") ==> e == EmailExists
    ensures !Contains(text, "users_email_key") && Contains(text, "users_document_number_key") ==> e == DocumentExists
    ensures e.ServerError? <==>
      && !Contains(text, "users_email_key")
      && !Contains(text, "users_document_number_key")
      && !(Contains(Lower(text), "check") && Contains(Lower(text), "admin"))
    ensures e.ServerError? ==> e.detail == StripStatusPrefix(text)
    ensures !e.ServerError? ==> IsCreateCheckError(e)
    ensures && !Contains(text, "users_email_key")
            && !Contains(text, "users_document_number_key")
            && Contains(Lower(text), "check") && Contains(Lower(text), "admin")
            ==> e == AdminPasswordRequired
  {
    if Contains(text, "users_email_key") then EmailExists
    else if Contains(text, "users_document_number_key") then DocumentExists
    else if Contains(Lower(text), "check") && Contains(Lower(text), "admin") then AdminPasswordRequired
    else ServerError(StripStatusPrefix(text))
  }

  /** Every check error `create_user` raises is a 400, rendered as "400: " and its message. */
  lemma RenderedText(e: UserError)
    requires IsCreateCheckError(e)
    ensures Rendered(e) == "400: " + Message(e)
  {
    assert Status(e) == 400;
    Text400();
  }

  /** `str(400)`, one digit at a time. */
  lemma Text400()
    ensures DecimalText(400) == "400"
  {
    assert DigitChar(4) == '4' && DigitChar(0) == '0';
    assert DecimalText(4) == "4";
    assert DecimalText(40) == DecimalText(4) + [DigitChar(0)] == "40";
    assert DecimalText(400) == DecimalText(40) + [DigitChar(0)] == "400";
  }

  /** The rendered text of a check error names no constraint and does not contain "check" in any case. */
  lemma RenderedLacksMarks(e: UserError)
    requires IsCreateCheckError(e)
    ensures !Contains(Rendered(e), "users_email_key") && !Contains(Rendered(e), "users_document_number_key")
    ensures !Contains(Lower(Rendered(e)), "check")
  {
    var t := Rendered(e);
    RenderedText(e);
    MessageUnmarked(e);
    UnmarkedConcat("400: ", Message(e));
    assert Unmarked(t);
    MissingCharNotContained(t, "users_email_key", '_');
    MissingCharNotContained(t, "users_document_number_key", '_');
    LowerLacksChar(t, 'k');
    MissingCharNotContained(Lower(t), "check", 'k');
  }

  /**
    Every error `create_user` raises itself reaches the client as a 500 whose
    detail is the original message: the texts contain no constraint name and
    no "check", and the "400: " prefix is stripped.
  */
  lemma CreateCheckErrorBecomesServerError(e: UserError)
    requires IsCreateCheckError(e)
    ensures CatchAll(Rendered(e)) == ServerError(Message(e))
    ensures Status(CatchAll(Rendered(e))) == 500
  {
    RenderedLacksMarks(e);
    RenderedText(e);
    StripRendered(400, Message(e));
  }

  /** The user the duplicate check finds: the first with the same e-mail ignoring case, or the same document. */
  function Conflict(rows: seq<User>, p: Schemas.UserCreate): (r: Option<nat>)
    ensures r.Some? ==> r.value < |rows|
    ensures r.Some? ==> Lower(rows[r.value].email) == Lower(p.email) || rows[r.value].documentNumber == p.documentNumber
    ensures r.None? <==> forall u :: u in rows ==> Lower(u.email) != Lower(p.email) && u.documentNumber != p.documentNumber
  {
    First(rows, (u: User) => Lower(u.email) == Lower(p.email) || u.documentNumber == p.documentNumber)
  }

  predicate AdminWithoutPassword(p: Schemas.UserCreate)
  {
    p.userType == ADMIN && (!p.password.Given? || |p.password.value| == 0)
  }

  /**
    The checks of `create_user` as it raises them, in order: the admin
    password, then the first conflicting user, where the e-mail error wins
    over the document error.
  */
  function CreateCheck(rows: seq<User>, p: Schemas.UserCreate): (r: Option<UserError>)
    ensures AdminWithoutPassword(p) ==> r == Some(AdminPasswordRequired)
    ensures r.None? <==> !AdminWithoutPassword(p)
                         && forall u :: u in rows ==> Lower(u.email) != Lower(p.email) && u.documentNumber != p.documentNumber
    ensures r.Some? ==> IsCreateCheckError(r.value)
    ensures !AdminWithoutPassword(p) && Conflict(rows, p).Some? ==>
      (r == Some(EmailExists) <==> Lower(rows[Conflict(rows, p).value].email) == Lower(p.email))
    ensures !AdminWithoutPassword(p) && Conflict(rows, p).Some? && Lower(rows[Conflict(rows, p).value].email) != Lower(p.email) ==>
      r == Some(DocumentExists)
  {
    if AdminWithoutPassword(p) then Some(AdminPasswordRequired)
    else match Conflict(rows, p)
      case None => None
      case Some(k) =>
        if Lower(rows[k].email) == Lower(p.email) then Some(EmailExists) else Some(DocumentExists)
  }

  /** The row `create_user` stores: the e-mail lower-cased, every other field as given. */
  function NewUser(id: int, p: Schemas.UserCreate): (u: User)
    ensures u.id == id && u.email == Lower(p.email)
    ensures u.firstName == p.firstName && u.lastName == p.lastName && u.documentNumber == p.documentNumber
    ensures u.userType == p.userType && u.password == Schemas.ValueOf(p.password) && u.imageHash == p.imageHash
  {
    User(id, p.firstName, p.lastName, p.documentNumber, Lower(p.email), p.userType, Schemas.ValueOf(p.password), p.imageHash)
  }

  /** Appending a row with the next id, and an e-mail and document no row holds, keeps the keys unique. */
  lemma AppendKeepsKeys(rows: seq<User>, nextId: int, n: User)
    requires UsersKeyed(rows, nextId) && n.id == nextId
    requires forall v :: v in rows ==> v.email != n.email && v.documentNumber != n.documentNumber
    ensures UsersKeyed(rows + [n], nextId + 1)
  {
    var t := rows + [n];
    forall i, j | 0 <= i < j < |t|
      ensures t[i].email != t[j].email && t[i].documentNumber != t[j].documentNumber
    {
      if j == |rows| {
        assert t[i] == rows[i] && t[i] in rows;
      }
    }
  }

  /**
    `create_user`: every error goes through the catch-all, whether raised by
    the checks or by the commit (whose failure text is `commitFailure`).
  */
  method CreateUser(users: UserTable, p: Schemas.UserCreate, commitFailure: Option<string>)
    returns (r: Result<User, UserError>)
    requires users.Valid()
    modifies users
    ensures users.Valid()
    ensures CreateCheck(old(users.rows), p).Some? ==>
      r == Err(CatchAll(Rendered(CreateCheck(old(users.rows), p).value))) && unchanged(users)
    ensures CreateCheck(old(users.rows), p).None? && commitFailure.Some? ==>
      r == Err(CatchAll(commitFailure.value)) && unchanged(users)
    ensures CreateCheck(old(users.rows), p).None? && commitFailure.None? ==>
      && r == Ok(NewUser(old(users.nextId), p))
      && users.rows == old(users.rows) + [r.value]
      && users.nextId == old(users.nextId) + 1
  {
    var check := CreateCheck(users.rows, p);
    if check.Some? {
      return Err(CatchAll(Rendered(check.value)));
    }
    if commitFailure.Some? {
      return Err(CatchAll(commitFailure.value));
    }
    var u := NewUser(users.nextId, p);
    LowerIdempotent(p.email);
    AppendKeepsKeys(users.rows, users.nextId, u);
    users.rows := users.rows + [u];
    users.nextId := users.nextId + 1;
    r := Ok(u);
  }

  /**
    A create whose e-mail (ignoring case) or document number is already
    taken, or an admin create without a password, is refused with a 500
    carrying the message of the check that fired.
  */
  lemma RefusedCreateIs500(rows: seq<User>, p: Schemas.UserCreate)
    requires AdminWithoutPassword(p) || exists u :: u in rows && (Lower(u.email) == Lower(p.email) || u.documentNumber == p.documentNumber)
    ensures CreateCheck(rows, p).Some?
    ensures CatchAll(Rendered(CreateCheck(rows, p).value)) == ServerError(Message(CreateCheck(rows, p).value))
  {
    CreateCheckErrorBecomesServerError(CreateCheck(rows, p).value);
  }

  // ---------------------------------------------------------------------
  // GET /users/{user_id}

  /** `get_user_by_id`: an integer key matches the id or the document number, any other key the document number. */
  function GetUserById(rows: seq<User>, key: string): (r: Result<User, UserError>)
    ensures r.Ok? ==> r.value in rows
    ensures r.Ok? ==> r.value.documentNumber == key || (ParseInt(key).Some? && r.value.id == ParseInt(key).value)
    ensures r.Err? <==> forall u :: u in rows ==>
      u.documentNumber != key && (ParseInt(key).None? || u.id != ParseInt(key).value)
    ensures r.Err? ==> r.error == UserNotFound
  {
    var found := match ParseInt(key)
      case Some(n) => First(rows, (u: User) => u.id == n || u.documentNumber == key)
      case None => First(rows, (u: User) => u.documentNumber == key);
    match found
    case Some(k) => Ok(rows[k])
    case None => Err(UserNotFound)
  }

  /**
    The decimal text of a stored user's id finds that user, provided no user
    has that text as its document number.
  */
  lemma IdTextFindsUser(rows: seq<User>, u: User)
    requires u in rows && u.id >= 0
    requires forall i, j :: 0 <= i < j < |rows| ==> rows[i].id != rows[j].id
    requires forall v :: v in rows ==> v.documentNumber != DecimalText(u.id)
    ensures GetUserById(rows, DecimalText(u.id)) == Ok(u)
  {
    ParseDecimalText(u.id);
    var r := GetUserById(rows, DecimalText(u.id));
    var i :| 0 <= i < |rows| && rows[i] == u;
    var j :| 0 <= j < |rows| && rows[j] == r.value;
  }

  /** With unique document numbers, a user's document number finds that user. */
  lemma DocumentFindsUser(rows: seq<User>, u: User)
    requires u in rows
    requires forall i, j :: 0 <= i < j < |rows| ==> rows[i].documentNumber != rows[j].documentNumber
    requires ParseInt(u.documentNumber).Some? ==> forall v :: v in rows ==> v.id != ParseInt(u.documentNumber).value
    ensures GetUserById(rows, u.documentNumber) == Ok(u)
  {
    var r := GetUserById(rows, u.documentNumber);
    var i :| 0 <= i < |rows| && rows[i] == u;
    var j :| 0 <= j < |rows| && rows[j] == r.value;
  }

  // ---------------------------------------------------------------------
  // PUT /users/{user_id}

  datatype UserField =
    | SetFirstName(firstName: string)
    | SetLastName(lastName: string)
    | SetEmail(email: string)
    | SetUserType(userType: string)
    | SetPassword(password: string)
    | SetImageHash(imageHash: string)

  function AssignUser(u: User, f: UserField): User
  {
    match f
    case SetFirstName(v) => u.(firstName := v)
    case SetLastName(v) => u.(lastName := v)
    case SetEmail(v) => u.(email := v)
    case SetUserType(v) => u.(userType := v)
    case SetPassword(v) => u.(password := Some(v))
    case SetImageHash(v) => u.(imageHash := v)
  }

  /** The supplied personal fields of an update (names and e-mail), in the schema's field order. */
  function PersonalFields(u: Schemas.UserUpdate): (fs: seq<UserField>)
    ensures |fs| <= 3
  {
    (if u.firstName.Some? then [SetFirstName(u.firstName.value)] else [])
    + (if u.lastName.Some? then [SetLastName(u.lastName.value)] else [])
    + (if u.email.Some? then [SetEmail(u.email.value)] else [])
  }

  /** The supplied account fields of an update (type, password, image), in the schema's field order. */
  function AccountFields(u: Schemas.UserUpdate): (fs: seq<UserField>)
    ensures |fs| <= 3
  {
    (if u.userType.Some? then [SetUserType(u.userType.value)] else [])
    + (if u.password.Some? then [SetPassword(u.password.value)] else [])
    + (if u.imageHash.Some? then [SetImageHash(u.imageHash.value)] else [])
  }

  /** The supplied fields of an update, in the schema's field order. */
  function UserUpdateFields(u: Schemas.UserUpdate): seq<UserField>
  {
    PersonalFields(u) + AccountFields(u)
  }

  /** The intended effect of an update: each supplied field replaces the stored one; id and document stay. */
  function PatchUser(x: User, u: Schemas.UserUpdate): (n: User)
    ensures n.id == x.id && n.documentNumber == x.documentNumber
    ensures n.firstName == (if u.firstName.Some? then u.firstName.value else x.firstName)
    ensures n.lastName == (if u.lastName.Some? then u.lastName.value else x.lastName)
    ensures n.email == (if u.email.Some? then u.email.value else x.email)
    ensures n.userType == (if u.userType.Some? then u.userType.value else x.userType)
    ensures n.password == (if u.password.Some? then u.password else x.password)
    ensures n.imageHash == (if u.imageHash.Some? then u.imageHash.value else x.imageHash)
  {
    User(
      x.id,
      u.firstName.GetOr(x.firstName),
      u.lastName.GetOr(x.lastName),
      x.documentNumber,
      u.email.GetOr(x.email),
      u.userType.GetOr(x.userType),
      if u.password.Some? then u.password else x.password,
      u.imageHash.GetOr(x.imageHash))
  }

  lemma FoldAtMostOne(x: User, fs: seq<UserField>)
    requires |fs| <= 1
    ensures FoldFields(x, fs, AssignUser) == if fs == [] then x else AssignUser(x, fs[0])
  {
    if fs != [] {
      assert fs[..0] == [];
    }
  }

  /** Folding three optional one-field segments one after the other. */
  lemma FoldThree(x: User, a: seq<UserField>, b: seq<UserField>, c: seq<UserField>)
    requires |a| <= 1 && |b| <= 1 && |c| <= 1
    ensures var xa := if a == [] then x else AssignUser(x, a[0]);
            var xb := if b == [] then xa else AssignUser(xa, b[0]);
            FoldFields(x, a + b + c, AssignUser) == if c == [] then xb else AssignUser(xb, c[0])
  {
    FoldFieldsAppend(x, a + b, c, AssignUser);
    FoldFieldsAppend(x, a, b, AssignUser);
    FoldAtMostOne(x, a);
    FoldAtMostOne(FoldFields(x, a, AssignUser), b);
    FoldAtMostOne(FoldFields(x, a + b, AssignUser), c);
  }

  lemma PersonalFieldsPatch(x: User, u: Schemas.UserUpdate)
    ensures FoldFields(x, PersonalFields(u), AssignUser) ==
            x.(firstName := u.firstName.GetOr(x.firstName), lastName := u.lastName.GetOr(x.lastName), email := u.email.GetOr(x.email))
  {
    FoldThree(x,
      if u.firstName.Some? then [SetFirstName(u.firstName.value)] else [],
      if u.lastName.Some? then [SetLastName(u.lastName.value)] else [],
      if u.email.Some? then [SetEmail(u.email.value)] else []);
  }

  lemma AccountFieldsPatch(x: User, u: Schemas.UserUpdate)
    ensures FoldFields(x, AccountFields(u), AssignUser) ==
            x.(userType := u.userType.GetOr(x.userType),
               password := if u.password.Some? then u.password else x.password,
               imageHash := u.imageHash.GetOr(x.imageHash))
  {
    FoldThree(x,
      if u.userType.Some? then [SetUserType(u.userType.value)] else [],
      if u.password.Some? then [SetPassword(u.password.value)] else [],
      if u.imageHash.Some? then [SetImageHash(u.imageHash.value)] else []);
  }

  /** The `setattr` loop over the supplied fields yields the field-by-field patch. */
  lemma SetAttrsPatchesUser(x: User, u: Schemas.UserUpdate)
    ensures FoldFields(x, UserUpdateFields(u), AssignUser) == PatchUser(x, u)
  {
    FoldFieldsAppend(x, PersonalFields(u), AccountFields(u), AssignUser);
    PersonalFieldsPatch(x, u);
    AccountFieldsPatch(FoldFields(x, PersonalFields(u), AssignUser), u);
  }

  /** The router's own admin rule: switching to admin without a new password needs a stored one. */
  predicate AdminSwitchRefused(stored: User, u: Schemas.UserUpdate)
  {
    && u.userType == Some(ADMIN)
    && (u.password.None? || |u.password.value| == 0)
    && (stored.password.None? || |stored.password.value| == 0)
  }

  /** Another row already holds the e-mail exactly (the unique column compares exactly). */
  predicate EmailTakenByOther(rows: seq<User>, k: nat, email: string)
  {
    exists j :: 0 <= j < |rows| && j != k && rows[j].email == email
  }

  /** Replacing a row by one with the same id and document, and an e-mail no other row holds, keeps the keys unique. */
  lemma ReplaceKeepsKeys(rows: seq<User>, nextId: int, k: nat, n: User)
    requires UsersKeyed(rows, nextId) && k < |rows|
    requires n.id == rows[k].id && n.documentNumber == rows[k].documentNumber
    requires n.email == rows[k].email || !EmailTakenByOther(rows, k, n.email)
    ensures UsersKeyed(rows[k := n], nextId)
  {
    if n.email != rows[k].email {
      assert forall j :: 0 <= j < |rows| && j != k ==> rows[j].email != n.email;
    }
  }

  /**
    `update_user`: 404, then the admin rule against the stored password, then
    the field assignments; an e-mail already held by another user makes the
    commit fail, which is reported as "e-mail exists" with nothing changed.
  */
  method UpdateUser(users: UserTable, id: int, u: Schemas.UserUpdate)
    returns (r: Result<User, UserError>)
    requires users.Valid()
    modifies users
    ensures users.Valid()
    ensures users.nextId == old(users.nextId)
    ensures old(users.IndexOf(id)).None? ==> r == Err(UserNotFound) && users.rows == old(users.rows)
    ensures old(users.IndexOf(id)).Some? ==>
      var k := old(users.IndexOf(id)).value;
      var before := old(users.rows);
      && (AdminSwitchRefused(before[k], u) ==> r == Err(AdminPasswordRequired) && users.rows == before)
      && (!AdminSwitchRefused(before[k], u) && u.email.Some? && EmailTakenByOther(before, k, u.email.value) ==>
            r == Err(EmailExists) && users.rows == before)
      && (!AdminSwitchRefused(before[k], u) && !(u.email.Some? && EmailTakenByOther(before, k, u.email.value)) ==>
            r == Ok(PatchUser(before[k], u)) && users.rows == before[k := r.value])
  {
    var found := users.IndexOf(id);
    if found.None? {
      return Err(UserNotFound);
    }
    var k := found.value;
    var stored := users.rows[k];
    if u.userType == Some(ADMIN) {
      if u.password.None? || |u.password.value| == 0 {
        if stored.password.None? || |stored.password.value| == 0 {
          return Err(AdminPasswordRequired);
        }
      }
    }
    var updated := SetAttrs(stored, UserUpdateFields(u), AssignUser);
    SetAttrsPatchesUser(stored, u);
    if u.email.Some? && EmailTakenByOther(users.rows, k, u.email.value) {
      return Err(EmailExists);
    }
    ReplaceKeepsKeys(users.rows, users.nextId, k, updated);
    users.rows := users.rows[k := updated];
    r := Ok(updated);
  }

  // ---------------------------------------------------------------------
  // POST /users/login

  /** The user a login identifier designates: the first whose e-mail or document number equals it exactly. */
  function LoginMatch(rows: seq<User>, identifier: string): (r: Option<nat>)
    ensures r.Some? ==> r.value < |rows|
    ensures r.Some? ==> rows[r.value].email == identifier || rows[r.value].documentNumber == identifier
    ensures r.None? <==> forall u :: u in rows ==> u.email != identifier && u.documentNumber != identifier
  {
    First(rows, (u: User) => u.email == identifier || u.documentNumber == identifier)
  }

  /** `login_user`: unknown identifier 404, not an admin 403, missing or different password 401. */
  function Login(rows: seq<User>, identifier: string, password: string): (r: Result<User, UserError>)
    ensures LoginMatch(rows, identifier).None? <==> r == Err(UserNotFound)
    ensures r == Err(NotAdmin) <==>
      LoginMatch(rows, identifier).Some? && rows[LoginMatch(rows, identifier).value].userType != ADMIN
    ensures r.Ok? ==>
      && r.value in rows
      && (r.value.email == identifier || r.value.documentNumber == identifier)
      && r.value.userType == ADMIN
      && r.value.password == Some(password) && password != ""
    ensures r.Err? ==> r.error in {UserNotFound, NotAdmin, InvalidCredentials}
    ensures r.Ok? <==>
      && LoginMatch(rows, identifier).Some?
      && rows[LoginMatch(rows, identifier).value].userType == ADMIN
      && rows[LoginMatch(rows, identifier).value].password == Some(password)
      && password != ""
    ensures r.Ok? ==> r.value == rows[LoginMatch(rows, identifier).value]
  {
    match LoginMatch(rows, identifier)
    case None => Err(UserNotFound)
    case Some(k) =>
      var user := rows[k];
      if user.userType != ADMIN then Err(NotAdmin)
      else if user.password.None? || |user.password.value| == 0 || user.password.value != password then Err(InvalidCredentials)
      else Ok(user)
  }

  /**
    An admin with a non-empty stored password, identified by an e-mail no
    other user has as e-mail or document number, logs in exactly with that
    password; any other password gives 401.
  */
  lemma AdminLoginByEmail(rows: seq<User>, u: User, password: string)
    requires u in rows && u.userType == ADMIN && u.password.Some? && u.password.value != ""
    requires forall v :: v in rows && v != u ==> v.email != u.email && v.documentNumber != u.email
    ensures Login(rows, u.email, password).Ok? <==> password == u.password.value
    ensures Login(rows, u.email, password).Ok? ==> Login(rows, u.email, password).value == u
    ensures password != u.password.value ==> Login(rows, u.email, password) == Err(InvalidCredentials)
  {
    var k := LoginMatch(rows, u.email).value;
    assert rows[k] == u;
  }
}
